=== FILE: README.md ===
# svelte-kit-rpc, modelled in Dafny

svelte-kit-rpc exposes plain TypeScript service classes as JSON-RPC 2.0 methods
over HTTP inside a SvelteKit application. This model covers the parts that decide
what goes over the wire and what a call returns:

- the server-side dispatcher `handleRPC` and its helpers (`hasProperty`,
  `isJsonRpcRequest`, `hasMethod`, `getRequestId`, `respond`, `fail`,
  `redirect`): module `RpcCore` in `rpccore.dfy`;
- the client: the response-shape predicates, the decision a call takes on
  the HTTP reply, `removeTrailingUndefs`, the request envelope, and the
  proxy's `get` trap deciding which property names become remote calls:
  module `Client` in `client.dfy`;
- the route registry `RPCServer` (`register`, `registerAll`,
  `getHandlerForURL`, `isRPCRequest`, `handle`) and the name helpers
  `serviceNameToRoute` and `serviceToServiceName`: module `Server` in
  `server.dfy`;
- the JavaScript values the library inspects (truthiness, `typeof`, the `in`
  operator with inherited keys, own-field reads): module `Values` in
  `values.dfy`;
- the serialisation library superjson as an opaque codec (`serialize` and
  `deserialize`), and the dispatcher's argument decoding as `deserialize`
  followed by JavaScript's argument spreading: module `Codec` in `codec.dfy`;
- the trip of a body through JSON text (`JSON.stringify` on one side,
  `JSON.parse` or `res.json()` on the other): module `Json` in `json.dfy`;
- the example application (`TestService`, `TestService2`, the route set the
  hooks register) and whole calls from proxy to reply: module `Scenarios` in
  `scenarios.dfy`.

Everything is functional. A thrown exception or a rejected promise is the
`Abrupt` case of a `Completion`. A request body is a
`Completion<Option<Value>>`: `Abrupt` when `request.text()` rejects, `None`
when `JSON.parse` throws. `crypto.randomUUID()` is a `freshId` parameter;
`fetch` is a `transport` function parameter whose result is `Abrupt` when
fetch rejects; a service instance is a map from every visible member name (own
or inherited) to a callable or a field.

Behaviour worth knowing:

- The route table is looked up by exact, case-sensitive pathname
  (`server.ts:38-40`); only `serviceNameToRoute` lower-cases, and
  `register` never calls it. `Server.MatchIsCaseSensitive` states this.
- A failure of superjson while decoding the arguments, or while encoding a
  result, is not turned into a protocol error: it escapes `handleRPC` and
  `handle` answers a plain 500 "Internal Server Error (1)."
  (`RpcCore.HandleRPC`, `RpcCore.EncodeFailureEscapes`, `Server.Handle`).
- A method that is not found is answered 404 with the bare string
  "Method X not found."; the client never reads that text, because the
  non-OK status raises first with the HTTP status line
  (`Scenarios.DispatcherFailureSeenByClient`, `Scenarios.UnknownMethodCall`).
- The fallback code 900 is reached only by a bare-string error envelope on
  an OK status, which the server itself never sends
  (`Scenarios.FailPayloadReadBack`).
- A method whose encoded result is `undefined` loses the `result` field when
  `respond` writes the envelope as JSON text, so the client raises
  ("Invalid JSON-RPC response.", 500) for a call the server answered 200
  (`Scenarios.UndefinedResultIsLost`).
- A BigInt left in the codec's tree makes `JSON.stringify` throw inside
  `respond`, which answers 500 with the TypeError's message
  (`RpcCore.Respond`, `RpcCore.ValueIsAnswered200`); on the client the same
  throw rejects the call before anything is posted (`Client.Call`).

## Model

| member | source | states |
|---|---|---|
| `Values.HasProperty` | src/lib/rpc/rpccore.ts:64-66 | `in` is false on every primitive (it needs `typeof` object and not null), true on every own field of a plain object, and true on every Object.prototype name. |
| `Values.OwnPropertyOnly` | src/lib/rpc/rpccore.ts:64-66 | For a key no prototype supplies, `prop in obj` on an object is true exactly for the own fields of a plain object. |
| `Values.ProtocolKeysNotInherited` | src/lib/rpc/client.ts:42-64 | None of the keys the protocol tests names a member of Object.prototype or Array.prototype. |
| `Values.ProtocolKeysAreOwn` | src/lib/rpc/rpccore.ts:64-66 | No protocol key is inherited, an array length or an index, so each `in` test of the library is a test of own fields. |
| `Values.OwnProtocolKey` | src/lib/rpc/rpccore.ts:64-66 | `hasProperty(v, k)` for a protocol key holds iff `v` is a plain object owning `k`. |
| `Values.LowerChar` | src/lib/rpc/server.ts:25 | ASCII upper-case letters move to lower case by 32 code points; every other character is kept; no upper-case letter is produced. |
| `Values.AsciiLower` | src/lib/rpc/server.ts:25 | Lower-casing keeps the length, leaves no upper-case ASCII letter, keeps every other character in place, and moves each upper-case letter to its lower-case partner. |
| `Values.AsciiLowerFixesLower` | src/lib/rpc/server.ts:25 | A string with no upper-case ASCII letter is its own lower-case form. |
| `Values.AsciiLowerIdempotent` | src/lib/rpc/server.ts:25 | Lower-casing twice is lower-casing once. |
| `Values.AsciiLowerConcat` | src/lib/rpc/server.ts:25 | Lower-casing distributes over concatenation. |
| `Client.IsRPCError` | src/lib/rpc/client.ts:42-53 | Error shape iff a plain object owns `error` and it is a string or an object owning both `code` and `message` (of any type). |
| `Client.IsRPCSuccess` | src/lib/rpc/client.ts:55-64 | Success shape iff a plain object owns `jsonrpc` equal to "2.0" and owns `id` and `result`, whatever their values. |
| `Client.IsRPCResponse` | src/lib/rpc/client.ts:66-68 | Only a plain object owning `error` or `result` can be a response; an object owning a string `error` always is. |
| `Client.InterpretResponse` | src/lib/rpc/client.ts:97-120 | A non-OK status raises (statusText, status) whatever the body; a body of neither shape raises ("Invalid JSON-RPC response.", 500); the error shape wins over success and raises (string, 900) or (message, code); a value is returned only from an OK success envelope, as received when `meta` is falsy or absent, decoded by the codec (or its throw passed through) when `meta` is truthy. |
| `Client.NonOkIgnoresBody` | src/lib/rpc/client.ts:97-99 | A non-OK reply is decided before the body is read: changing the body changes nothing. |
| `Client.RemoveTrailingUndefs` | src/lib/rpc/client.ts:138-142 | The result is a prefix of the input, does not end in `undefined`, and everything dropped is `undefined`. |
| `Client.TrimmedIsUnique` | src/lib/rpc/client.ts:138-142 | Those three properties determine the result: any prefix having them is the trimmed list. |
| `Client.TrimIdempotent` | src/lib/rpc/client.ts:138-142 | Trimming twice is trimming once. |
| `Client.TrimIgnoresTrailingUndefined` | src/lib/rpc/client.ts:138-142 | Appending an `undefined` does not change the trimmed list. |
| `Client.TrimKeepsLastDefined` | src/lib/rpc/client.ts:138-142 | Every argument up to and including any defined one is kept in place. |
| `Client.TrimExamples` | src/lib/rpc/client.ts:138-142 | `[1, 2, undefined, undefined]` trims to `[1, 2]`, all-`undefined` to `[]`, and an interior `undefined` survives. |
| `Client.RequestEnvelope` | src/lib/rpc/client.ts:77-92 | A codec throw on the trimmed arguments ends the call with that throw; otherwise the envelope has exactly the fields `jsonrpc` "2.0", `id`, `method`, and the codec's tree and descriptor of the trimmed arguments as `params` and `meta`. |
| `Client.Call` | src/lib/rpc/client.ts:74-121 | An envelope that cannot be encoded ends the call with the codec's throw, whatever the transport; an envelope holding a BigInt ends it with JSON.stringify's TypeError before anything is posted; a rejected `fetch` rejects the call with fetch's own error, not an `RpcError`; a reply to the envelope is decided by the response interpreter, and a non-OK one raises (statusText, status). |
| `Client.EnvelopeStringifiable` | src/lib/rpc/client.ts:86-92 | JSON.stringify can write the envelope exactly when it can write the codec's tree and descriptor of the arguments. |
| `Client.CallOfReply` | src/lib/rpc/client.ts:78-120 | Once the envelope is written and the transport answers it, the call's outcome is the response interpreter's verdict on that reply. |
| `Client.CallUsesOnlyTheReply` | src/lib/rpc/client.ts:74-121 | Two transports that give the same reply to the call's envelope give the same call outcome. |
| `Client.EnvelopeIgnoresTrailingUndefined` | src/lib/rpc/client.ts:77-92 | `f(a)` and `f(a, undefined, …, undefined)` post the same request envelope. |
| `Client.ProxyGet` | src/lib/rpc/client.ts:127-133 | A symbol is refused; a string key is refused iff it starts with "$", is found by the `in` operator on an empty plain object, or is "toJSON"; a forwarded call carries exactly the key's name. |
| `Client.ProxyRefusesInherited` | src/lib/rpc/client.ts:130 | Every name an ordinary object inherits is refused. |
| `Client.ForwardedIsNotInherited` | src/lib/rpc/client.ts:127-133 | A forwarded name is not inherited by any plain object, so on a plain object `in` finds it only as an own field. |
| `Client.ProxyExamples` | src/lib/rpc/client.ts:127-133 | "hello" and "then" are forwarded; "toString", "toJSON", "$set" and a symbol are not. |
| `RpcCore.ThrownMessage` | src/lib/rpc/rpccore.ts:104-108 | The text of a 500 after a codec throw is the thrown object's own string `message`, and "Internal Server Error (2)." for anything else. |
| `RpcCore.Respond` | src/lib/rpc/rpccore.ts:90-110 | No payload gives an empty body with the given status and headers; a payload the codec encodes to a truthy tree is answered with that tree at the given status and headers; a falsy tree gives 500 "Can't serialize payload.", a tree holding a BigInt gives 500 with JSON.stringify's TypeError message, and a codec throw gives 500 with the thrown message, all without the caller's headers; the status changes only in those three cases. |
| `RpcCore.FailPayload` | src/lib/rpc/rpccore.ts:112-115 | The failure payload is an error envelope and never a success one, and is plain JSON (it survives the trip through JSON text unchanged); the client reads it as (message, 900) for a code of 0 or less and as (message, code) for a positive code. |
| `RpcCore.Fail` | src/lib/rpc/rpccore.ts:112-115 | With a pass-through codec the answer is the failure payload at the given status; the status is otherwise the given one or 500. |
| `RpcCore.Redirect` | src/lib/rpc/rpccore.ts:117-122 | A redirect has the redirect's status, no body and a `location` header with the location. |
| `RpcCore.IsJsonRpcRequest` | src/lib/rpc/rpccore.ts:68-73 | A request iff a plain object owns `jsonrpc` equal to "2.0", a string `method` and an array `params`. |
| `RpcCore.RequestShapeIgnoresIdAndMeta` | src/lib/rpc/rpccore.ts:68-73 | Adding, changing or removing `id` or `meta` never changes whether a body is a request. |
| `RpcCore.RequestId` | src/lib/rpc/rpccore.ts:82-88 | The id read is null, a string or a number; it is the request's own `id` whenever that is a string or a number, and null otherwise. |
| `RpcCore.ResolveId` | src/lib/rpc/rpccore.ts:82-88 | The response id is the request's own `id` when it is a non-empty string or a non-zero number, and the minted id otherwise (line 139: absent, null, other types, `0` and `""` alike). |
| `RpcCore.ResolvedIdIsUsable` | src/lib/rpc/rpccore.ts:139 | With a non-empty minted id, the resolved id is always a non-empty string or a non-zero number. |
| `RpcCore.HasMethodThroughPrototype` | src/lib/rpc/rpccore.ts:75-80 | On an instance laid over its prototype, an own member decides `hasMethod` (shadowing an inherited one) and an inherited member decides it only where there is no own member. |
| `Codec.Spread` | src/lib/rpc/rpccore.ts:156 | Spreading an array passes its elements, a string its characters, and any other value throws. |
| `Codec.DeserializeArgs` | src/lib/rpc/rpccore.ts:150-156 | The argument list is the decoded value spread: a decode throw escapes as is, and a decoded array gives exactly its elements. |
| `RpcCore.SuccessPayload` | src/lib/rpc/rpccore.ts:160-161 | The success payload satisfies the client's success shape and not its error shape, and carries the resolved id, the codec's tree as `result` and its descriptor as `meta`. |
| `RpcCore.HandleRPC` | src/lib/rpc/rpccore.ts:125-166 | A body that is not a request is answered 400 before the service is consulted; an unknown or non-function member is answered 404 next; nothing escapes before a callable method is found; a decoding failure escapes without calling the method. |
| `RpcCore.OwnIdMakesAnswerRepeatable` | src/lib/rpc/rpccore.ts:139 | With a usable id of its own, the answer to a request does not depend on the minted id. |
| `RpcCore.UnparseableIsNull` | src/lib/rpc/rpccore.ts:129-138 | A body `JSON.parse` rejects is handled exactly like the JSON `null`, and is always answered. |
| `RpcCore.InvalidRequestIs400` | src/lib/rpc/rpccore.ts:141-143 | A malformed request is answered 400 with the bare string "Invalid JSON-RPC request.", independently of the service and the minted id. |
| `RpcCore.UnknownMethodIs404` | src/lib/rpc/rpccore.ts:145-148 | A request for a missing method is answered 404 with the bare string "Method X not found.". |
| `RpcCore.RedirectIsAnsweredAsRedirect` | src/lib/rpc/rpccore.ts:155-159 | A method returning an `RPCRedirect` is answered with its status, no body and its location, without serialising. |
| `RpcCore.ValueIsAnswered200` | src/lib/rpc/rpccore.ts:160-161 | A method returning any other value is answered by `respond` with the success envelope of the encoded value at 200: with whatever truthy tree the codec makes of that envelope if JSON.stringify can write it, with a 500 carrying the BigInt TypeError message if it cannot, and with the envelope itself when the codec leaves it alone and its parts hold no BigInt. |
| `RpcCore.SuccessPayloadStringifiable` | src/lib/rpc/rpccore.ts:99 | JSON.stringify can write the success envelope exactly when it can write the id, the tree and the descriptor. |
| `RpcCore.EncodeFailureEscapes` | src/lib/rpc/rpccore.ts:160-165 | A returned value the codec cannot encode produces no response; the codec's exception escapes. |
| `RpcCore.ThrowEscapes` | src/lib/rpc/rpccore.ts:162-165 | A method's exception escapes `handleRPC` unchanged; no response is produced. |
| `RpcCore.DispatcherFailuresAreBare` | src/lib/rpc/rpccore.ts:112-115 | With the default code 0 the failure payload's `error` is a bare string. |
| `Server.ServiceNameToRoute` | src/lib/rpc/server.ts:24-26 | The route is the lower-cased base, "/rpc/" and the lower-cased service name, and is itself fully lower-case. |
| `Server.RouteIgnoresCase` | src/lib/rpc/server.ts:24-26 | Service names that differ only in letter case share a route. |
| `Server.ServiceToServiceName` | src/lib/rpc/server.ts:28-30 | A class name ending in "Service" loses exactly that suffix; any other name is kept whole. |
| `Server.ServiceNameStripsSuffix` | src/lib/rpc/server.ts:28-30 | Appending "Service" to a name and deriving the service name give the name back. |
| `Server.ServiceNameExamples` | src/lib/rpc/server.ts:28-30 | "TestService" gives "Test", "ServiceService" gives "Service" (one suffix only), "TestService2" is unchanged. |
| `Server.Register` | src/lib/rpc/server.ts:62-67 | The route (base + basePath + path for a string, the pathname for a URL) maps to the class afterwards; no other route is added or changed; the bases are kept. |
| `Server.RegisterAll` | src/lib/rpc/server.ts:69-73 | Registering all entries keeps the server's bases. |
| `Server.RegisterAllRoutes` | src/lib/rpc/server.ts:69-73 | With distinct keys, every entry `k` is served at base + basePath + "/" + k by its class, no route outside those and the old ones appears, and old routes no entry names keep their classes. |
| `Server.LookupAfterRegister` | src/lib/rpc/server.ts:38-40 | After `register`, looking up its route finds the new class, and every other pathname finds what it found before. |
| `Server.IsRPCRequestAfterRegister` | src/lib/rpc/server.ts:58-60 | After `register`, a request is claimed iff it is for the new route or was claimed before; a fresh server claims none. |
| `Server.Handle` | src/lib/rpc/server.ts:42-56 | A miss is a plain 404 "Not Found." with no instance built; a throwing constructor, a request body that cannot be read, or an escaping dispatcher exception gives a plain 500; otherwise status and body pass through, the dispatcher's headers go to the event with `x-rpc: dfntly`; the marker is set iff the dispatcher answered. |
| `Server.RegisterAllServesClientUrls` | src/lib/rpc/rpc.ts:11-12 | After `registerAll` under the configured base, the URL each entry's client posts to is an RPC request served by that entry's class. |
| `Server.MatchIsCaseSensitive` | src/lib/rpc/server.ts:38-40 | A route registered as "/Test" serves "/rpc/Test" and not "/rpc/test". |
| `Server.RegisterLastWriteWins` | src/lib/rpc/server.ts:65 | Registering a second class at a route is the same as registering only the second. |
| `Json.PlainJson` | src/lib/rpc/client.ts:101 | What JSON.parse produces is never `undefined` and holds no BigInt. |
| `Json.Reparse` | src/lib/rpc/rpccore.ts:99 | JSON text keeps an object's fields except the `undefined` ones, each reparsed; an array keeps its length and turns `undefined` items into null; an opaque object becomes `{}`; only `undefined` has no text. |
| `Json.ReparseIsPlain` | src/lib/rpc/client.ts:101 | Whatever JSON.stringify writes, what is read back is plain JSON. |
| `Json.ReparseFixesPlain` | src/lib/rpc/client.ts:101 | Plain JSON makes the trip unchanged. |
| `Json.ReparseKeepsPlainFields` | src/lib/rpc/rpccore.ts:99 | An object of plain or `undefined` fields loses exactly the `undefined` ones and keeps the others as they are. |
| `Json.ReparseIdempotent` | src/lib/rpc/client.ts:101 | A second trip through JSON text changes nothing. |
| `Scenarios.ClientEnvelopeIsAccepted` | src/lib/rpc/client.ts:86-92 | The envelope the client posts passes the server's request check, and the server reads back the method name, arguments, descriptor and (non-empty) id. |
| `Scenarios.ReparsedSuccessWithoutMeta` | src/lib/rpc/rpccore.ts:99 | A plain success envelope with an `undefined` descriptor comes out of JSON text without `meta` and with `jsonrpc`, `id` and `result` as they were. |
| `Scenarios.SuccessReadBackOverJson` | src/lib/rpc/client.ts:110-117 | After the trip through JSON text, the client still returns a plain result as encoded without a descriptor and decoded with one. |
| `Scenarios.UndefinedResultIsLost` | src/lib/rpc/client.ts:101-104 | A success envelope whose result tree is `undefined` comes back without `result`, and the client raises ("Invalid JSON-RPC response.", 500). |
| `Scenarios.SuccessReadBack` | src/lib/rpc/client.ts:115-120 | The server's success envelope, read by the client, returns the result as encoded without a descriptor and decoded with one. |
| `Scenarios.DispatcherFailureSeenByClient` | src/lib/rpc/client.ts:97-99 | A dispatcher failure carries 400, 404 (or 500 if the codec fails on it), and the client raises with the HTTP status line and that status whatever the body, never the server's message. |
| `Scenarios.FailPayloadReadBack` | src/lib/rpc/client.ts:106-113 | A failure payload on an OK status raises (message, 900) for a bare string and (message, code) for a positive code. |
| `Scenarios.AppServesBothEntries` | src/hooks.server.ts:8-9 | The hooks' server serves "/rpc/test" with TestService and "/rpc/test2" with TestService2. |
| `Scenarios.HelloAnn` | src/lib/rpc/services/testservice.ts:8-10 | `hello("Ann")` returns "Hello Ann!". |
| `Scenarios.HelloDispatched` | src/lib/rpc/rpccore.ts:155-161 | The dispatcher answers the client's `hello("Ann")` envelope with 200 and the success envelope of "Hello Ann!". |
| `Scenarios.HelloServerAnswer` | src/lib/rpc/server.ts:42-56 | `handle` answers that envelope, posted to "/rpc/test", with 200, the success envelope of "Hello Ann!" with no descriptor, and no headers of its own. |
| `Scenarios.DeliverJsonBody` | src/lib/rpc/client.ts:101 | What the client reads from a JSON response is the body after its trip through JSON text. |
| `Scenarios.HelloDelivered` | src/lib/rpc/client.ts:101 | The client of entry "test" receives 200 and the JSON round trip of the success envelope, which JSON.stringify can write. |
| `Scenarios.PlainEnvelopeWritten` | src/lib/rpc/client.ts:85-91 | Under the pass-through codec, the envelope of a call whose arguments hold no BigInt is encoded and written without a throw. |
| `Scenarios.HelloCall` | src/lib/rpc/client.ts:74-121 | The whole call `hello("Ann")` over the app's transport returns "Hello Ann!". |
| `Scenarios.HelloRoundTrip` | src/lib/rpc/client.ts:74-121 | `rpc.test.hello("Ann")` is forwarded by the proxy and returns "Hello Ann!". |
| `Scenarios.RedirDispatched` | src/lib/rpc/rpccore.ts:155-159 | The dispatcher answers the client's `redir()` envelope with 301, no body and `location: /neo/profile`. |
| `Scenarios.RedirAnswer` | src/lib/rpc/services/testservice2.ts:10-12 | `rpc.test2.redir()` is answered 301 with no body, and the event gets `location: /neo/profile` and the marker header. |
| `Scenarios.UnknownMethodServerAnswer` | src/lib/rpc/rpccore.ts:146-148 | Calling a method TestService lacks reaches the dispatcher and is answered 404. |
| `Scenarios.UnknownMethodCall` | src/lib/rpc/client.ts:97-99 | That call raises (statusText, 404) on the client. |
| `Scenarios.ForwardedNamesSelectOwnMembers` | src/lib/rpc/client.ts:130 | On any service laid over the inherited members, a forwarded name finds the service's own member or nothing, and `hasMethod` for it depends only on the own members. |
| `Scenarios.InheritedMembersAreMethods` | src/lib/rpc/rpccore.ts:75-80 | Inherited functions such as `toString` count as methods on the server, fields do not, and the proxy never forwards `toString`. |
| `Scenarios.ThrowingMethodIs500` | src/lib/rpc/server.ts:53-55 | Calling the class constructor as a method throws, and `handle` answers the plain 500. |

## Left out

- superjson's internal encoding and its descriptor format: it is a codec with
  two operations given as parameters (`serialize`, `deserialize`); lemmas that need its behaviour name it
  (`PassesThrough`, or the concrete pass-through codec of `Scenarios`).
- The characters of JSON text: a body is a value tree and `Json.Reparse` is
  what survives `JSON.stringify` followed by `JSON.parse`; a request body
  that does not parse is `None`. Number formatting, `toJSON` methods (a
  Date's) and getters are not modelled: an opaque object becomes `{}`.
- `Scenarios.AppTransport` hands the server the envelope tree without the
  trip through JSON text; for the scenarios' envelopes the only difference is
  the dropped `meta: undefined`, which the server reads as `undefined`
  either way.
- The Fetch `Response` and `Headers` plumbing: a response is status, body and
  a map of lower-cased header names; the stream re-wrap in `handle` is a
  response with no headers of its own.
- `crypto.randomUUID()` is a parameter; its uniqueness is not modelled.
- `async` / `await`: every step is a synchronous function; awaiting a promise
  that rejects is the `Abrupt` case.
- `console.log` in `handleRPC` and `register` (logging only).
- The TypeScript type machinery (`ValidateServiceClass`, `PromisifyMethods`,
  `JSONValue`): it constrains nothing at run time.
- `createLazyRoute` and the `+services` dynamic import: the route set is
  given as a sequence of (key, class) pairs; `+routes.ts` contributes only
  the base "/rpc" and the two entries.
- The client's `getHeaders` and `credentials` options and the request
  headers: a `getHeaders` that throws or rejects makes the call reject
  before anything is posted, and custom headers or credentials can change
  what the server answers; the model's transport stands for the whole
  exchange and `Client.Call` does not model the options.
- `Codec.Spread`: a Set or Map (`Special`) is iterable in JavaScript but is
  modelled as throwing, and the thrown TypeError's message text is the
  engine's, not the one the model gives.
- `fetch`'s redirect following: the reply is what the transport returns.
- URL parsing and percent-encoding: pathnames are strings compared as given.
- `Values.LowerChar`: models `toLocaleLowerCase` on ASCII letters only, because
  locale tables and non-ASCII case mappings are outside the model.
- Floating point: numbers are `real`, so NaN and -0 do not exist.
- Symbols and functions as values: `Special` stands only for objects the
  library never looks into (a Set, Map or RegExp), which inherit
  Object.prototype like any object.
- `event.setHeaders` throwing on a header set twice (SvelteKit behaviour):
  the event's headers are a map.
- `RPCRedirect` statuses outside 300-308: the TypeScript type rules them out.
- `Scenarios.TemplateString`: renders numbers and other values as a
  placeholder, because JavaScript number formatting is outside the model.
- `Scenarios.InheritedMembers`: inherited Object.prototype methods other
  than `toString` (which returns "[object Object]") and `__defineGetter__` /
  `__defineSetter__` (which throw) are assumed to return normally, with a
  value the model does not compute.
- `Scenarios.PlainCodec` passes `undefined` fields through unrecorded, so the
  server's success envelopes carry `meta: undefined` where superjson would
  describe them; `Scenarios.Deliver` sends the body through JSON text, so
  that field is gone before the client reads the reply.
- `Server.RegisterAll`: its own contract only states that the bases are kept;
  the route-level properties are in `Server.RegisterAllRoutes`, which needs
  distinct keys as `Object.entries` supplies them.

=== FILE: client.dfy ===
/** The client side of the protocol (client.ts): the response envelope
    shapes, the decision a call takes on the HTTP reply, argument trimming,
    the request envelope, and the rule deciding which property names of the
    client proxy become remote calls. */
module Client {
  import opened Values
  import opened Codec
  import opened Json

  const InvalidResponseMessage: string := "Invalid JSON-RPC response."
  /** The code raised for an unusable response body. */
  const InvalidResponseCode: real := 500.0
  /** The code raised for an error envelope whose `error` is a bare string. */
  const StringErrorCode: real := 900.0

  /** `RpcError`: the one error type a remote call raises. The two fields
      hold whatever the response supplied; their types are not checked. */
  datatype RpcError = RpcError(message: Value, code: Value)

  /** How a remote call ends for its caller: a value, an `RpcError`, or an
      exception of the codec passed through unchanged. */
  datatype CallResult =
    | Returned(value: Value)
    | Raised(error: RpcError)
    | Threw(thrown: Value)

  /** What `fetch` hands back: the status line, and the body as `res.json()`
      reads it (`None` when reading it as JSON rejects). */
  datatype HttpReply = HttpReply(status: int, statusText: string, body: Option<Value>)

  /** `Response.ok`. */
  predicate IsOk(reply: HttpReply) {
    200 <= reply.status <= 299
  }

  /** The body as the client sees it: a failed read becomes `undefined`. */
  function BodyOf(reply: HttpReply): Value {
    if reply.body.Some? then reply.body.value else Undefined
  }

  /** `isRPCError`: an object whose `error` is a string, or an object having
      both a `code` and a `message` key of any type. */
  predicate IsRPCError(res: Value)
    ensures IsRPCError(res) <==>
      && res.Obj?
      && "error" in res.fields
      && (|| res.fields["error"].Str?
          || (&& res.fields["error"].Obj?
              && "code" in res.fields["error"].fields
              && "message" in res.fields["error"].fields))
  {
    OwnProtocolKey(res, "error");
    OwnProtocolKey(Get(res, "error"), "code");
    OwnProtocolKey(Get(res, "error"), "message");
    && IsObject(res)
    && HasProperty(res, "error")
    && (|| (&& IsObject(Get(res, "error"))
            && HasProperty(Get(res, "error"), "code")
            && HasProperty(Get(res, "error"), "message"))
        || Get(res, "error").Str?)
  }

  /** `isRPCSuccess`: an object tagged "2.0" having `id` and `result` keys;
      the id may be null and neither value is checked. */
  predicate IsRPCSuccess(res: Value)
    ensures IsRPCSuccess(res) <==>
      && res.Obj?
      && "jsonrpc" in res.fields && res.fields["jsonrpc"] == Str(JsonRpcVersion)
      && "id" in res.fields
      && "result" in res.fields
  {
    OwnProtocolKey(res, "jsonrpc");
    OwnProtocolKey(res, "id");
    OwnProtocolKey(res, "result");
    && IsObject(res)
    && HasProperty(res, "jsonrpc")
    && Get(res, "jsonrpc") == Str(JsonRpcVersion)
    && HasProperty(res, "id")
    && HasProperty(res, "result")
  }

  /** `isRPCResponse`: only a plain object owning `error` or `result` can
      be a response envelope. */
  predicate IsRPCResponse(res: Value)
    ensures IsRPCResponse(res) ==> res.Obj? && ("error" in res.fields || "result" in res.fields)
    ensures res.Obj? && "error" in res.fields && res.fields["error"].Str? ==> IsRPCResponse(res)
  {
    IsRPCError(res) || IsRPCSuccess(res)
  }

  /** The error a call raises for an error envelope. */
  function ErrorOf(res: Value): RpcError
    requires IsRPCError(res)
  {
    var e := res.fields["error"];
    if e.Str? then RpcError(e, Num(StringErrorCode))
    else RpcError(e.fields["message"], e.fields["code"])
  }

  /** The response handling inside `request`, in the source's order: HTTP
      status, then envelope shape, then error before success, then the
      optional decoding of the result. */
  function InterpretResponse(codec: Codec, reply: HttpReply): (r: CallResult)
    // A failed HTTP status raises with the status line, whatever the body.
    ensures !IsOk(reply) ==> r == Raised(RpcError(Str(reply.statusText), Num(reply.status as real)))
    // A body of neither shape is a protocol violation.
    ensures IsOk(reply) && !IsRPCError(BodyOf(reply)) && !IsRPCSuccess(BodyOf(reply)) ==>
      r == Raised(RpcError(Str(InvalidResponseMessage), Num(InvalidResponseCode)))
    // The error shape is checked first, so a body of both shapes raises.
    ensures IsOk(reply) && IsRPCError(BodyOf(reply)) ==>
      && r.Raised?
      && (BodyOf(reply).fields["error"].Str? ==>
            r.error == RpcError(BodyOf(reply).fields["error"], Num(StringErrorCode)))
      && (BodyOf(reply).fields["error"].Obj? ==>
            r.error == RpcError(BodyOf(reply).fields["error"].fields["message"],
                                BodyOf(reply).fields["error"].fields["code"]))
    // A value comes back only from an OK success envelope ...
    ensures !r.Raised? ==> IsOk(reply) && IsRPCSuccess(BodyOf(reply)) && !IsRPCError(BodyOf(reply))
    // ... and without a truthy `meta` it is `result` as received.
    ensures IsOk(reply) && IsRPCSuccess(BodyOf(reply)) && !IsRPCError(BodyOf(reply))
            && ("meta" !in BodyOf(reply).fields || !Truthy(BodyOf(reply).fields["meta"])) ==>
      r == Returned(BodyOf(reply).fields["result"])
    // With a truthy `meta` the codec decodes `result`.
    ensures IsOk(reply) && IsRPCSuccess(BodyOf(reply)) && !IsRPCError(BodyOf(reply))
            && "meta" in BodyOf(reply).fields && Truthy(BodyOf(reply).fields["meta"]) ==>
      match codec.deserialize(BodyOf(reply).fields["result"], BodyOf(reply).fields["meta"])
      case Normal(v) => r == Returned(v)
      case Abrupt(e) => r == Threw(e)
  {
    var res := BodyOf(reply);
    if !IsOk(reply) then
      Raised(RpcError(Str(reply.statusText), Num(reply.status as real)))
    else if !IsRPCResponse(res) then
      Raised(RpcError(Str(InvalidResponseMessage), Num(InvalidResponseCode)))
    else if IsRPCError(res) then
      Raised(ErrorOf(res))
    else
      var result := Get(res, "result");
      var meta := Get(res, "meta");
      if Truthy(meta) then
        match codec.deserialize(result, meta)
        case Normal(v) => Returned(v)
        case Abrupt(e) => Threw(e)
      else
        Returned(result)
  }

  /** A non-OK reply is decided before the body is read. */
  lemma NonOkIgnoresBody(codec: Codec, reply: HttpReply, body: Option<Value>)
    requires !IsOk(reply)
    ensures InterpretResponse(codec, reply) == InterpretResponse(codec, reply.(body := body))
  {
  }

  /** `removeTrailingUndefs`: the longest prefix of `values` that does not
      end in `undefined`. Interior `undefined`s stay where they are. */
  function RemoveTrailingUndefs(values: seq<Value>): (r: seq<Value>)
    ensures r <= values
    ensures |r| == 0 || r[|r| - 1] != Undefined
    ensures forall i :: |r| <= i < |values| ==> values[i] == Undefined
    decreases |values|
  {
    if |values| > 0 && values[|values| - 1] == Undefined then
      RemoveTrailingUndefs(values[..|values| - 1])
    else
      values
  }

  /** The three properties of `RemoveTrailingUndefs` pin its result down:
      no other prefix has them. */
  lemma TrimmedIsUnique(values: seq<Value>, r: seq<Value>)
    requires r <= values
    requires |r| == 0 || r[|r| - 1] != Undefined
    requires forall i :: |r| <= i < |values| ==> values[i] == Undefined
    ensures r == RemoveTrailingUndefs(values)
  {
  }

  /** Trimming twice is trimming once. */
  lemma TrimIdempotent(values: seq<Value>)
    ensures RemoveTrailingUndefs(RemoveTrailingUndefs(values)) == RemoveTrailingUndefs(values)
  {
    var t := RemoveTrailingUndefs(values);
    TrimmedIsUnique(t, t);
  }

  /** An omitted trailing optional argument and an explicit `undefined` in
      its place trim to the same list. */
  lemma TrimIgnoresTrailingUndefined(values: seq<Value>)
    ensures RemoveTrailingUndefs(values + [Undefined]) == RemoveTrailingUndefs(values)
  {
    assert (values + [Undefined])[..|values|] == values;
  }

  /** Trimming keeps everything up to and including the last argument that
      is not `undefined`. */
  lemma TrimKeepsLastDefined(values: seq<Value>, i: nat)
    requires i < |values| && values[i] != Undefined
    ensures i < |RemoveTrailingUndefs(values)|
    ensures RemoveTrailingUndefs(values)[..i + 1] == values[..i + 1]
  {
  }

  /** `[1, 2, undefined, undefined]` trims to `[1, 2]`; a list of only
      `undefined` trims to nothing; an interior `undefined` survives. */
  lemma TrimExamples()
    ensures RemoveTrailingUndefs([Num(1.0), Num(2.0), Undefined, Undefined]) == [Num(1.0), Num(2.0)]
    ensures RemoveTrailingUndefs([Undefined, Undefined]) == []
    ensures RemoveTrailingUndefs([Undefined, Num(1.0), Undefined]) == [Undefined, Num(1.0)]
  {
    TrimmedIsUnique([Num(1.0), Num(2.0), Undefined, Undefined], [Num(1.0), Num(2.0)]);
    TrimmedIsUnique([Undefined, Undefined], []);
    TrimmedIsUnique([Undefined, Num(1.0), Undefined], [Undefined, Num(1.0)]);
  }

  /** The request envelope `request` posts for `name(args)`: the trimmed
      argument list goes through the codec, and its descriptor rides along
      as `meta`. */
  function RequestEnvelope(codec: Codec, id: string, name: string, args: seq<Value>): (r: Completion<Value>)
    // A codec throw ends the call before anything is posted.
    ensures codec.serialize(Arr(RemoveTrailingUndefs(args))).Abrupt? ==>
      r == Abrupt(codec.serialize(Arr(RemoveTrailingUndefs(args))).thrown)
    // Otherwise the envelope has exactly the five protocol fields.
    ensures codec.serialize(Arr(RemoveTrailingUndefs(args))).Normal? ==>
      && r.Normal? && r.value.Obj?
      && r.value.fields.Keys == {"jsonrpc", "id", "method", "params", "meta"}
      && r.value.fields["jsonrpc"] == Str(JsonRpcVersion)
      && r.value.fields["id"] == Str(id)
      && r.value.fields["method"] == Str(name)
      && r.value.fields["params"] == codec.serialize(Arr(RemoveTrailingUndefs(args))).value.json
      && r.value.fields["meta"] == codec.serialize(Arr(RemoveTrailingUndefs(args))).value.meta
  {
    match codec.serialize(Arr(RemoveTrailingUndefs(args)))
    case Abrupt(e) => Abrupt(e)
    case Normal(enc) =>
      Normal(Obj(map[
        "jsonrpc" := Str(JsonRpcVersion),
        "id" := Str(id),
        "method" := Str(name),
        "params" := enc.json,
        "meta" := enc.meta]))
  }

  /** JSON.stringify can write the envelope exactly when it can write the
      codec's tree and descriptor of the arguments. */
  lemma EnvelopeStringifiable(codec: Codec, id: string, name: string, args: seq<Value>)
    requires codec.serialize(Arr(RemoveTrailingUndefs(args))).Normal?
    ensures Stringifiable(RequestEnvelope(codec, id, name, args).value) <==>
      && Stringifiable(codec.serialize(Arr(RemoveTrailingUndefs(args))).value.json)
      && Stringifiable(codec.serialize(Arr(RemoveTrailingUndefs(args))).value.meta)
  {
    var fields := RequestEnvelope(codec, id, name, args).value.fields;
    assert fields["jsonrpc"] == Str(JsonRpcVersion);
  }

  /** Trailing `undefined` arguments do not reach the wire: `f(1, 2)` and
      `f(1, 2, undefined, undefined)` post the same envelope. */
  lemma EnvelopeIgnoresTrailingUndefined(codec: Codec, id: string, name: string, args: seq<Value>, n: nat)
    ensures RequestEnvelope(codec, id, name, args + seq(n, _ => Undefined)) == RequestEnvelope(codec, id, name, args)
  {
    var pad := seq(n, _ => Undefined);
    assert forall i :: |args| <= i < |args + pad| ==> (args + pad)[i] == Undefined;
    var t := RemoveTrailingUndefs(args);
    assert t <= args + pad;
    TrimmedIsUnique(args + pad, t);
  }

  /** One remote call: build the envelope, write it with `JSON.stringify`,
      exchange it over `transport` (fetch, with the server behind it;
      `Abrupt` when fetch rejects) and interpret the reply. The id is the
      caller's fresh `crypto.randomUUID()`. */
  function Call(codec: Codec, name: string, args: seq<Value>, id: string,
                transport: Value -> Completion<HttpReply>): (r: CallResult)
    // An envelope that cannot be encoded is never posted: the codec's throw
    // is the outcome, whatever the transport.
    ensures var env := RequestEnvelope(codec, id, name, args);
      env.Abrupt? ==> r == Threw(env.thrown)
    // Nor is one JSON.stringify cannot write.
    ensures var env := RequestEnvelope(codec, id, name, args);
      env.Normal? && !Stringifiable(env.value) ==> r == Threw(TypeError(BigIntMessage))
    // A rejected fetch rejects the call with fetch's own error, not an RpcError.
    ensures var env := RequestEnvelope(codec, id, name, args);
      env.Normal? && Stringifiable(env.value) && transport(env.value).Abrupt? ==>
        r == Threw(transport(env.value).thrown)
    // A reply is decided by the response interpreter alone ...
    ensures var env := RequestEnvelope(codec, id, name, args);
      env.Normal? && Stringifiable(env.value) && transport(env.value).Normal? ==>
        r == InterpretResponse(codec, transport(env.value).value)
    // ... so a non-OK one raises with its status line.
    ensures var env := RequestEnvelope(codec, id, name, args);
      env.Normal? && Stringifiable(env.value) && transport(env.value).Normal?
      && !IsOk(transport(env.value).value) ==>
        r == Raised(RpcError(Str(transport(env.value).value.statusText),
                             Num(transport(env.value).value.status as real)))
  {
    match RequestEnvelope(codec, id, name, args)
    case Abrupt(e) => Threw(e)
    case Normal(envelope) =>
      if !Stringifiable(envelope) then Threw(TypeError(BigIntMessage))
      else
        match transport(envelope)
        case Abrupt(e) => Threw(e)
        case Normal(reply) => InterpretResponse(codec, reply)
  }

  /** A call whose envelope is written and answered is decided by the
      response interpreter on that answer. */
  lemma CallOfReply(codec: Codec, name: string, args: seq<Value>, id: string,
                    transport: Value -> Completion<HttpReply>, reply: HttpReply)
    requires RequestEnvelope(codec, id, name, args).Normal?
    requires Stringifiable(RequestEnvelope(codec, id, name, args).value)
    requires transport(RequestEnvelope(codec, id, name, args).value) == Normal(reply)
    ensures Call(codec, name, args, id, transport) == InterpretResponse(codec, reply)
  {
  }

  /** The outcome of a call depends on the transport only through its reply
      to the one envelope the call posts. */
  lemma CallUsesOnlyTheReply(codec: Codec, name: string, args: seq<Value>, id: string,
                             t1: Value -> Completion<HttpReply>, t2: Value -> Completion<HttpReply>)
    requires RequestEnvelope(codec, id, name, args).Normal? ==>
      t1(RequestEnvelope(codec, id, name, args).value) == t2(RequestEnvelope(codec, id, name, args).value)
    ensures Call(codec, name, args, id, t1) == Call(codec, name, args, id, t2)
  {
  }

  /** A property key as the proxy's `get` trap receives it. */
  datatype PropertyKey = SymbolKey(description: string) | StringKey(name: string)

  /** The proxy's `get` trap: `Some(name)` when reading the key yields a
      function that calls `request(name, args)` with the full argument
      list, `None` when it yields `undefined`. Symbols, names starting with
      "$", names on Object.prototype and "toJSON" are never remote calls. */
  function ProxyGet(key: PropertyKey): (forwarded: Option<string>)
    ensures forwarded.Some? ==> key == StringKey(forwarded.value)
    ensures key.SymbolKey? ==> forwarded.None?
    // A name is refused iff it is "$"-prefixed, found by `in` on a fresh
    // empty object, or "toJSON".
    ensures key.StringKey? ==>
      (forwarded.None? <==>
        || StartsWith(key.name, "$")
        || HasProperty(Obj(map[]), key.name)
        || key.name == "toJSON")
  {
    match key
    case SymbolKey(_) => None
    case StringKey(prop) =>
      if StartsWith(prop, "$") then None
      else if prop in ObjectPrototypeKeys then None
      else if prop == "toJSON" then None
      else Some(prop)
  }

  /** Every name an ordinary object inherits is refused, so no forwarded
      name can reach a member every instance inherits. */
  lemma ProxyRefusesInherited(k: string)
    requires HasProperty(Obj(map[]), k)
    ensures ProxyGet(StringKey(k)).None?
  {
  }

  /** A forwarded name is one no object inherits. */
  lemma ForwardedIsNotInherited(k: string, v: Value)
    requires ProxyGet(StringKey(k)).Some?
    ensures !HasProperty(Obj(map[]), k)
    ensures k !in ObjectPrototypeKeys
    ensures v.Obj? ==> (HasProperty(v, k) <==> k in v.fields)
  {
  }

  /** What the trap does with probes a framework typically makes: the
      inherited and serialisation probes are refused, an ordinary method
      name and also "then" become remote calls. */
  lemma ProxyExamples()
    ensures ProxyGet(StringKey("hello")) == Some("hello")
    ensures ProxyGet(StringKey("then")) == Some("then")
    ensures ProxyGet(StringKey("toString")) == None
    ensures ProxyGet(StringKey("toJSON")) == None
    ensures ProxyGet(StringKey("$set")) == None
    ensures ProxyGet(SymbolKey("Symbol.iterator")) == None
  {
    assert "then" !in ObjectPrototypeKeys && "then"[0] != '$';
    assert "hello" !in ObjectPrototypeKeys && "hello"[0] != '$';
  }
}

=== FILE: codec.dfy ===
/** The rich-value codec (superjson) at its interface boundary.

    The codec's own algorithm is foreign to this library, so it enters the
    model as two function-valued fields; every operation that encodes or
    decodes takes a `Codec` and states its contract relative to whatever the
    codec returns. */
module Codec {
  import opened Values

  /** What `serialize` returns: a plain JSON tree and the side-channel
      descriptor that records how to rebuild the non-JSON parts. */
  datatype Serialized = Serialized(json: Value, meta: Value)

  datatype Codec = Codec(
    /** `superjson.serialize`, which may throw. */
    serialize: Value -> Completion<Serialized>,
    /** `superjson.deserialize({json, meta})`, which may throw. */
    deserialize: (Value, Value) -> Completion<Value>
  )

  /** Spreading a value into an argument list (`f(...v)`): an array gives
      its elements, a string its characters, and a value that is not
      iterable throws a TypeError. */
  function Spread(v: Value): (r: Completion<seq<Value>>)
    ensures v.Arr? ==> r == Normal(v.items)
    ensures v.Str? ==>
      (r.Normal? && |r.value| == |v.s| && forall i :: 0 <= i < |v.s| ==> r.value[i] == Str([v.s[i]]))
    ensures !v.Arr? && !v.Str? ==> r.Abrupt?
  {
    match v
    case Arr(items) => Normal(items)
    case Str(s) => Normal(seq(|s|, i requires 0 <= i < |s| => Str([s[i]])))
    case _ => Abrupt(TypeError("Spread syntax requires an iterable"))
  }

  /** The dispatcher's argument decoding: `deserialize({json, meta})`
      followed by spreading the result; a throw of either step escapes. */
  function DeserializeArgs(codec: Codec, json: Value, meta: Value): (r: Completion<seq<Value>>)
    ensures codec.deserialize(json, meta).Abrupt? ==> r == Abrupt(codec.deserialize(json, meta).thrown)
    ensures codec.deserialize(json, meta).Normal? ==> r == Spread(codec.deserialize(json, meta).value)
    ensures r.Normal? && codec.deserialize(json, meta).Normal? && codec.deserialize(json, meta).value.Arr? ==>
      r.value == codec.deserialize(json, meta).value.items
  {
    match codec.deserialize(json, meta)
    case Abrupt(e) => Abrupt(e)
    case Normal(v) => Spread(v)
  }

  /** The codec leaves `v` as it is and needs no descriptor, as superjson
      does for plain JSON without `undefined`. */
  predicate PassesThrough(codec: Codec, v: Value) {
    codec.serialize(v) == Normal(Serialized(v, Undefined))
  }
}

=== FILE: json.dfy ===
/** What survives a trip through JSON text: `JSON.stringify` on one side of
    the wire and `JSON.parse` on the other. The library writes every body
    with `JSON.stringify` (the server's `respond`, the client's request
    envelope) and reads it back with `JSON.parse` / `res.json()`. */
module Json {
  import opened Values

  /** The TypeError message JSON.stringify throws on a BigInt. */
  const BigIntMessage: string := "Do not know how to serialize a BigInt"

  /** JSON.stringify writes `v` without throwing: no BigInt anywhere in it. */
  predicate Stringifiable(v: Value) {
    match v
    case BigInt(_) => false
    case Arr(items) => forall i :: 0 <= i < |items| ==> Stringifiable(items[i])
    case Obj(fields) => forall k :: k in fields ==> Stringifiable(fields[k])
    case _ => true
  }

  /** The values JSON.parse produces: null, booleans, numbers, strings, and
      arrays and plain objects of them. */
  predicate PlainJson(v: Value)
    ensures PlainJson(v) ==> Stringifiable(v) && v != Undefined
  {
    match v
    case Null => true
    case Bool(_) => true
    case Num(_) => true
    case Str(_) => true
    case Arr(items) => forall i :: 0 <= i < |items| ==> PlainJson(items[i])
    case Obj(fields) => forall k :: k in fields ==> PlainJson(fields[k])
    case _ => false
  }

  /** `JSON.parse(JSON.stringify(v))`: an `undefined` object field is
      dropped, an `undefined` array element becomes null, and an object the
      library never looks into (a Set, Map or RegExp) has no enumerable own
      property and becomes `{}`. A top-level `undefined` has no JSON text
      and stays `undefined`. */
  function Reparse(v: Value): (r: Value)
    requires Stringifiable(v)
    ensures v.Obj? ==> r.Obj? && forall k :: k in r.fields <==> k in v.fields && v.fields[k] != Undefined
    ensures v.Obj? ==> forall k :: k in r.fields ==> r.fields[k] == Reparse(v.fields[k])
    ensures v.Arr? ==> r.Arr? && |r.items| == |v.items|
    ensures v.Arr? ==> forall i :: 0 <= i < |v.items| && v.items[i] == Undefined ==> r.items[i] == Null
    ensures v.Special? ==> r == Obj(map[])
    ensures v == Undefined <==> r == Undefined
  {
    match v
    case Arr(items) =>
      Arr(seq(|items|, i requires 0 <= i < |items| => if items[i] == Undefined then Null else Reparse(items[i])))
    case Obj(fields) => Obj(map k | k in fields && fields[k] != Undefined :: Reparse(fields[k]))
    case Special(_) => Obj(map[])
    case _ => v
  }

  /** Whatever was written, what is read back is plain JSON. */
  lemma {:induction false} ReparseIsPlain(v: Value)
    requires Stringifiable(v) && v != Undefined
    ensures PlainJson(Reparse(v))
  {
    match v
    case Arr(items) =>
      forall i | 0 <= i < |items| && items[i] != Undefined
        ensures PlainJson(Reparse(v).items[i])
      {
        ReparseIsPlain(items[i]);
      }
    case Obj(fields) =>
      forall k | k in Reparse(v).fields
        ensures PlainJson(Reparse(v).fields[k])
      {
        ReparseIsPlain(fields[k]);
      }
    case _ =>
  }

  /** Plain JSON makes the trip unchanged. */
  lemma {:induction false} ReparseFixesPlain(v: Value)
    requires PlainJson(v)
    ensures Reparse(v) == v
  {
    match v
    case Arr(items) =>
      forall i | 0 <= i < |items|
        ensures Reparse(v).items[i] == items[i]
      {
        ReparseFixesPlain(items[i]);
      }
    case Obj(fields) =>
      forall k | k in fields
        ensures Reparse(v).fields[k] == fields[k]
      {
        ReparseFixesPlain(fields[k]);
      }
    case _ =>
  }

  /** An object whose fields are plain JSON or `undefined` loses exactly the
      `undefined` ones and keeps every other field as it is. */
  lemma ReparseKeepsPlainFields(fields: map<string, Value>)
    requires forall k :: k in fields ==> fields[k] == Undefined || PlainJson(fields[k])
    ensures Stringifiable(Obj(fields))
    ensures Reparse(Obj(fields)).fields.Keys == set k | k in fields && fields[k] != Undefined
    ensures forall k :: k in Reparse(Obj(fields)).fields ==> Reparse(Obj(fields)).fields[k] == fields[k]
  {
    forall k | k in fields && fields[k] != Undefined
      ensures Reparse(fields[k]) == fields[k]
    {
      ReparseFixesPlain(fields[k]);
    }
  }

  /** A second trip changes nothing. */
  lemma ReparseIdempotent(v: Value)
    requires Stringifiable(v) && v != Undefined
    ensures Stringifiable(Reparse(v)) && Reparse(Reparse(v)) == Reparse(v)
  {
    ReparseIsPlain(v);
    ReparseFixesPlain(Reparse(v));
  }
}

=== FILE: rpccore.dfy ===
/** The server-side dispatcher (rpccore.ts): request validation, response-id
    resolution, method lookup, and the mapping of a method's three possible
    outcomes (a value, a redirect, a throw) to one HTTP response or to a
    propagated exception. */
module RpcCore {
  import opened Values
  import opened Codec
  import opened Json
  import Client

  const InvalidRequestMessage: string := "Invalid JSON-RPC request."
  const SerializeFailedMessage: string := "Can't serialize payload."
  const RespondFailedMessage: string := "Internal Server Error (2)."
  /** The content type the Fetch `Response` constructor gives a string body. */
  const TextPlain: string := "text/plain;charset=UTF-8"

  function MethodNotFoundMessage(name: string): string {
    "Method " + name + " not found."
  }

  /** HTTP headers, names lower-cased as the Fetch `Headers` class keeps them. */
  type Headers = map<string, string>

  /** A response body: none, a plain text, or the text `JSON.stringify`
      makes of a tree. */
  datatype Body = NoBody | Text(text: string) | Json(tree: Value)

  datatype Response = Response(status: int, body: Body, headers: Headers)

  /** The statuses the Fetch `Response` constructor accepts. */
  type HttpStatus = s: int | 200 <= s <= 599 witness 200

  /** The statuses `RPCRedirect` admits. */
  type RedirectStatus = s: int | 300 <= s <= 308 witness 300

  /** `RPCRedirect`: a method's request to answer with a redirect instead of
      a value. `location` is the string `location.toString()` gives. */
  datatype RPCRedirect = RPCRedirect(location: string, status: RedirectStatus)

  /** What awaiting a service method gives: a value, an `RPCRedirect`
      (recognised by class, never serialised), or a thrown value. */
  datatype MethodOutcome =
    | Returned(value: Value)
    | Redirected(redirect: RPCRedirect)
    | Threw(thrown: Value)

  /** A member visible on a service instance, own or inherited. */
  datatype Member = Callable(call: seq<Value> -> MethodOutcome) | Field(value: Value)

  /** A service instance: every visible member name mapped to its member. */
  type Service = map<string, Member>

  /** `new Response(body, {status, headers})`: a string body brings a
      `content-type` of its own unless one is given. */
  function NewResponse(body: Body, status: int, headers: Headers): Response {
    if !body.NoBody? && "content-type" !in headers then
      Response(status, body, headers["content-type" := TextPlain])
    else
      Response(status, body, headers)
  }

  /** The text `respond` answers with when serialisation throws `e`. */
  function ThrownMessage(e: Value): (m: string)
    ensures e.Obj? && "message" in e.fields && e.fields["message"].Str? ==> m == e.fields["message"].s
    ensures !(e.Obj? && "message" in e.fields && e.fields["message"].Str?) ==> m == RespondFailedMessage
  {
    OwnProtocolKey(e, "message");
    if HasProperty(e, "message") && Get(e, "message").Str? then Get(e, "message").s
    else RespondFailedMessage
  }

  /** `respond`: the payload, if any, goes through the codec and its tree
      through `JSON.stringify`; a throw of either, or an empty tree from the
      codec, turns into a 500 carrying a message. */
  function Respond(codec: Codec, payload: Option<Value>, status: HttpStatus, headers: Headers): (r: Response)
    ensures payload.None? ==> r == Response(status, NoBody, headers)
    ensures payload.Some? && Truthy(payload.value) && PassesThrough(codec, payload.value)
            && Stringifiable(payload.value) ==>
      r == NewResponse(Json(payload.value), status, headers)
    // Whatever tree the codec makes of the payload is the body, if it is
    // truthy and JSON.stringify can write it.
    ensures payload.Some? && Truthy(payload.value) && codec.serialize(payload.value).Normal?
            && Truthy(codec.serialize(payload.value).value.json)
            && Stringifiable(codec.serialize(payload.value).value.json) ==>
      r == NewResponse(Json(codec.serialize(payload.value).value.json), status, headers)
    // A BigInt in the tree makes JSON.stringify throw: a 500 with its message.
    ensures payload.Some? && Truthy(payload.value) && codec.serialize(payload.value).Normal?
            && Truthy(codec.serialize(payload.value).value.json)
            && !Stringifiable(codec.serialize(payload.value).value.json) ==>
      r == Response(500, Text(BigIntMessage), map["content-type" := TextPlain])
    // A falsy tree is a 500 "Can't serialize payload." without the caller's headers.
    ensures payload.Some? && Truthy(payload.value) && codec.serialize(payload.value).Normal?
            && !Truthy(codec.serialize(payload.value).value.json) ==>
      r == Response(500, Text(SerializeFailedMessage), map["content-type" := TextPlain])
    // A codec throw is a 500 carrying the thrown message, without the caller's headers.
    ensures payload.Some? && Truthy(payload.value) && codec.serialize(payload.value).Abrupt? ==>
      r == Response(500, Text(ThrownMessage(codec.serialize(payload.value).thrown)), map["content-type" := TextPlain])
    // The status given is kept unless serialising the payload failed.
    ensures r.status != status ==> r.status == 500 && r.body.Text? && payload.Some?
  {
    if payload.Some? && Truthy(payload.value) then
      match codec.serialize(payload.value)
      case Abrupt(e) => NewResponse(Text(ThrownMessage(e)), 500, map[])
      case Normal(data) =>
        if !Truthy(data.json) then NewResponse(Text(SerializeFailedMessage), 500, map[])
        else if !Stringifiable(data.json) then NewResponse(Text(ThrownMessage(TypeError(BigIntMessage))), 500, map[])
        else NewResponse(Json(data.json), status, headers)
    else
      NewResponse(NoBody, status, headers)
  }

  /** The payload `fail` builds: a structured error for a positive code, a
      bare string otherwise. Either way the client reads it as an error
      envelope and never as a success. */
  function FailPayload(message: string, code: int): (p: Value)
    ensures Client.IsRPCError(p) && !Client.IsRPCSuccess(p)
    ensures PlainJson(p)
    ensures code <= 0 ==> Client.ErrorOf(p) == Client.RpcError(Str(message), Num(Client.StringErrorCode))
    ensures code > 0 ==> Client.ErrorOf(p) == Client.RpcError(Str(message), Num(code as real))
  {
    if code > 0 then
      var error := Obj(map["code" := Num(code as real), "message" := Str(message)]);
      assert PlainJson(error.fields["code"]) && PlainJson(error.fields["message"]);
      Obj(map["error" := error])
    else Obj(map["error" := Str(message)])
  }

  function Fail(codec: Codec, message: string, status: HttpStatus, code: int): (r: Response)
    ensures PassesThrough(codec, FailPayload(message, code)) ==>
      r == Response(status, Json(FailPayload(message, code)), map["content-type" := TextPlain])
    ensures r.status == status || r.status == 500
  {
    Respond(codec, Some(FailPayload(message, code)), status, map[])
  }

  /** `redirect`: no body, the redirect's status and a `Location` header;
      the codec is never consulted. */
  function Redirect(codec: Codec, location: string, status: RedirectStatus): (r: Response)
    ensures r.status == status && r.body == NoBody && r.headers == map["location" := location]
  {
    Respond(codec, None, status, map["location" := location])
  }

  /** `isJsonRpcRequest`: tagged "2.0", a string `method`, an array
      `params`. Neither `id` nor `meta` is looked at. */
  predicate IsJsonRpcRequest(req: Value)
    ensures IsJsonRpcRequest(req) <==>
      && req.Obj?
      && "jsonrpc" in req.fields && req.fields["jsonrpc"] == Str(JsonRpcVersion)
      && "method" in req.fields && req.fields["method"].Str?
      && "params" in req.fields && req.fields["params"].Arr?
  {
    OwnProtocolKey(req, "jsonrpc");
    OwnProtocolKey(req, "method");
    OwnProtocolKey(req, "params");
    if !HasProperty(req, "jsonrpc") || Get(req, "jsonrpc") != Str(JsonRpcVersion) then false
    else if !HasProperty(req, "method") || !Get(req, "method").Str? then false
    else if !HasProperty(req, "params") || !Get(req, "params").Arr? then false
    else true
  }

  lemma RequestShapeIgnoresIdAndMeta(fields: map<string, Value>, id: Value, meta: Value)
    ensures IsJsonRpcRequest(Obj(fields)) == IsJsonRpcRequest(Obj(fields["id" := id]))
    ensures IsJsonRpcRequest(Obj(fields)) == IsJsonRpcRequest(Obj(fields["meta" := meta]))
    ensures IsJsonRpcRequest(Obj(fields)) == IsJsonRpcRequest(Obj(fields - {"id", "meta"}))
  {
  }

  /** `getRequestId`: the id if it is a string or a number, else null. */
  function RequestId(req: Value): (id: Value)
    ensures id == Null || id.Str? || id.Num?
    ensures id != Null ==> req.Obj? && "id" in req.fields && req.fields["id"] == id
    ensures req.Obj? && "id" in req.fields && (req.fields["id"].Str? || req.fields["id"].Num?) ==>
      id == req.fields["id"]
  {
    OwnProtocolKey(req, "id");
    if HasProperty(req, "id") && (Get(req, "id").Str? || Get(req, "id").Num?) then Get(req, "id")
    else Null
  }

  /** A request id that survives `getRequestId(...) || randomUUID()`. */
  predicate IsUsableId(id: Value) {
    (id.Str? && id.s != "") || (id.Num? && id.n != 0.0)
  }

  /** The id a response carries: the request's own id when it is a
      non-empty string or a non-zero number, and the freshly minted one in
      every other case (absent, null, another type, `0`, `""`). */
  function ResolveId(req: Value, freshId: string): (id: Value)
    ensures req.Obj? && "id" in req.fields && IsUsableId(req.fields["id"]) ==> id == req.fields["id"]
    ensures !(req.Obj? && "id" in req.fields && IsUsableId(req.fields["id"])) ==> id == Str(freshId)
  {
    OwnProtocolKey(req, "id");
    var id := RequestId(req);
    if Truthy(id) then id else Str(freshId)
  }

  /** A minted id is a UUID, never empty, so the response always carries a
      usable id. */
  lemma ResolvedIdIsUsable(req: Value, freshId: string)
    requires freshId != ""
    ensures IsUsableId(ResolveId(req, freshId))
  {
  }

  /** `hasMethod`: the name is visible on the instance (inherited members
      count) and is a function. */
  predicate HasMethod(srvc: Service, name: string) {
    name in srvc && srvc[name].Callable?
  }

  /** An instance is its prototype's members overlaid with its own: an own
      member decides `hasMethod`, shadowing an inherited one, and an
      inherited member decides it only where the instance has none. */
  lemma HasMethodThroughPrototype(proto: Service, own: Service, name: string)
    ensures HasMethod(proto + own, name) == (if name in own then own[name].Callable? else HasMethod(proto, name))
    ensures name !in proto ==> HasMethod(proto + own, name) == HasMethod(own, name)
  {
  }

  function MethodName(req: Value): string
    requires IsJsonRpcRequest(req)
  {
    req.fields["method"].s
  }

  /** The success envelope: version tag, resolved id, and the codec's tree
      and descriptor for the result. */
  function SuccessPayload(id: Value, enc: Serialized): (p: Value)
    ensures Client.IsRPCSuccess(p) && !Client.IsRPCError(p)
    ensures p.fields["id"] == id && p.fields["result"] == enc.json
    ensures "meta" in p.fields && p.fields["meta"] == enc.meta
  {
    Obj(map["jsonrpc" := Str(JsonRpcVersion), "id" := id, "result" := enc.json, "meta" := enc.meta])
  }

  /** JSON.stringify can write the success envelope exactly when it can
      write the id, the tree and the descriptor. */
  lemma SuccessPayloadStringifiable(id: Value, enc: Serialized)
    ensures Stringifiable(SuccessPayload(id, enc)) <==>
      Stringifiable(id) && Stringifiable(enc.json) && Stringifiable(enc.meta)
  {
    var fields := SuccessPayload(id, enc).fields;
    assert fields.Keys == {"jsonrpc", "id", "result", "meta"};
    assert fields["jsonrpc"] == Str(JsonRpcVersion);
  }

  /** `safeParse`: text JSON.parse rejects reads as null. */
  function BodyOrNull(parsed: Option<Value>): Value {
    if parsed.Some? then parsed.value else Null
  }

  /** `handleRPC`: one request body against one service instance. `parsed`
      is the body after JSON.parse (`None` when it threw), `freshId` the
      value `crypto.randomUUID()` would mint. The result is the response,
      or the exception that escapes. */
  function HandleRPC(codec: Codec, parsed: Option<Value>, srvc: Service, freshId: string): (r: Completion<Response>)
    // Shape validation comes first and never consults the service.
    ensures !IsJsonRpcRequest(BodyOrNull(parsed)) ==>
      r == Normal(Fail(codec, InvalidRequestMessage, 400, 0))
    // Method lookup comes second.
    ensures IsJsonRpcRequest(BodyOrNull(parsed)) && !HasMethod(srvc, MethodName(BodyOrNull(parsed))) ==>
      r == Normal(Fail(codec, MethodNotFoundMessage(MethodName(BodyOrNull(parsed))), 404, 0))
    // Nothing escapes before a callable method has been found.
    ensures r.Abrupt? ==>
      IsJsonRpcRequest(BodyOrNull(parsed)) && HasMethod(srvc, MethodName(BodyOrNull(parsed)))
    // A decoding failure escapes without calling the method.
    ensures IsJsonRpcRequest(BodyOrNull(parsed)) && HasMethod(srvc, MethodName(BodyOrNull(parsed)))
            && DeserializeArgs(codec, BodyOrNull(parsed).fields["params"],
                                     Get(BodyOrNull(parsed), "meta")).Abrupt? ==>
      r == Abrupt(DeserializeArgs(codec, BodyOrNull(parsed).fields["params"],
                                        Get(BodyOrNull(parsed), "meta")).thrown)
  {
    var req := BodyOrNull(parsed);
    var id := ResolveId(req, freshId);
    if !IsJsonRpcRequest(req) then
      Normal(Fail(codec, InvalidRequestMessage, 400, 0))
    else
      var name := Get(req, "method").s;
      if !HasMethod(srvc, name) then
        Normal(Fail(codec, MethodNotFoundMessage(name), 404, 0))
      else
        match DeserializeArgs(codec, Get(req, "params"), Get(req, "meta"))
        case Abrupt(e) => Abrupt(e)
        case Normal(args) =>
          match srvc[name].call(args)
          case Threw(e) => Abrupt(e)
          case Redirected(rd) => Normal(Redirect(codec, rd.location, rd.status))
          case Returned(v) =>
            match codec.serialize(v)
            case Abrupt(e) => Abrupt(e)
            case Normal(enc) => Normal(Respond(codec, Some(SuccessPayload(id, enc)), 200, map[]))
  }

  /** The minted id matters only to a request without a usable id of its
      own: with one, repeating the request gives the same answer whatever
      is minted. */
  lemma OwnIdMakesAnswerRepeatable(codec: Codec, parsed: Option<Value>, srvc: Service, freshId: string, freshId': string)
    requires BodyOrNull(parsed).Obj? && "id" in BodyOrNull(parsed).fields
    requires IsUsableId(BodyOrNull(parsed).fields["id"])
    ensures HandleRPC(codec, parsed, srvc, freshId) == HandleRPC(codec, parsed, srvc, freshId')
  {
    assert ResolveId(BodyOrNull(parsed), freshId) == ResolveId(BodyOrNull(parsed), freshId');
  }

  /** A body that is not JSON behaves like the JSON text `null`. */
  lemma UnparseableIsNull(codec: Codec, srvc: Service, freshId: string)
    ensures HandleRPC(codec, None, srvc, freshId) == HandleRPC(codec, Some(Null), srvc, freshId)
    ensures HandleRPC(codec, None, srvc, freshId).Normal?
  {
  }

  /** A malformed request is answered 400 with the bare string "Invalid
      JSON-RPC request.", whatever the service and the minted id. */
  lemma InvalidRequestIs400(codec: Codec, parsed: Option<Value>, srvc: Service, srvc': Service, freshId: string, freshId': string)
    requires !IsJsonRpcRequest(BodyOrNull(parsed))
    requires PassesThrough(codec, Obj(map["error" := Str(InvalidRequestMessage)]))
    ensures HandleRPC(codec, parsed, srvc, freshId) == HandleRPC(codec, parsed, srvc', freshId')
    ensures HandleRPC(codec, parsed, srvc, freshId) ==
      Normal(Response(400, Json(Obj(map["error" := Str(InvalidRequestMessage)])), map["content-type" := TextPlain]))
  {
  }

  /** A well-formed request naming no method, or a member that is not a
      function, is answered 404 with a bare string naming the method. */
  lemma UnknownMethodIs404(codec: Codec, parsed: Option<Value>, srvc: Service, freshId: string)
    requires IsJsonRpcRequest(BodyOrNull(parsed))
    requires !HasMethod(srvc, MethodName(BodyOrNull(parsed)))
    requires PassesThrough(codec, Obj(map["error" := Str(MethodNotFoundMessage(MethodName(BodyOrNull(parsed))))]))
    ensures HandleRPC(codec, parsed, srvc, freshId) ==
      Normal(Response(404, Json(Obj(map["error" := Str(MethodNotFoundMessage(MethodName(BodyOrNull(parsed))))])),
                      map["content-type" := TextPlain]))
  {
  }

  /** A method that returns an `RPCRedirect` is answered with an empty body,
      the redirect's status and its location, without serialising anything. */
  lemma RedirectIsAnsweredAsRedirect(codec: Codec, parsed: Option<Value>, srvc: Service, freshId: string, args: seq<Value>, rd: RPCRedirect)
    requires IsJsonRpcRequest(BodyOrNull(parsed))
    requires HasMethod(srvc, MethodName(BodyOrNull(parsed)))
    requires DeserializeArgs(codec, BodyOrNull(parsed).fields["params"], Get(BodyOrNull(parsed), "meta")) == Normal(args)
    requires srvc[MethodName(BodyOrNull(parsed))].call(args) == Redirected(rd)
    ensures HandleRPC(codec, parsed, srvc, freshId) ==
      Normal(Response(rd.status, NoBody, map["location" := rd.location]))
  {
  }

  /** Any other value is answered 200 with whatever the codec makes of the
      success envelope (the tag "2.0", the resolved id, the value's tree and
      descriptor); a codec that leaves the envelope alone sends it as is. */
  lemma ValueIsAnswered200(codec: Codec, parsed: Option<Value>, srvc: Service, freshId: string, args: seq<Value>, v: Value, enc: Serialized)
    requires IsJsonRpcRequest(BodyOrNull(parsed))
    requires HasMethod(srvc, MethodName(BodyOrNull(parsed)))
    requires DeserializeArgs(codec, BodyOrNull(parsed).fields["params"], Get(BodyOrNull(parsed), "meta")) == Normal(args)
    requires srvc[MethodName(BodyOrNull(parsed))].call(args) == Returned(v)
    requires codec.serialize(v) == Normal(enc)
    ensures var p := SuccessPayload(ResolveId(BodyOrNull(parsed), freshId), enc);
      HandleRPC(codec, parsed, srvc, freshId) == Normal(Respond(codec, Some(p), 200, map[]))
    ensures var p := SuccessPayload(ResolveId(BodyOrNull(parsed), freshId), enc);
      codec.serialize(p).Normal? && Truthy(codec.serialize(p).value.json)
      && Stringifiable(codec.serialize(p).value.json) ==>
        HandleRPC(codec, parsed, srvc, freshId) ==
          Normal(Response(200, Json(codec.serialize(p).value.json), map["content-type" := TextPlain]))
    // A tree JSON.stringify cannot write turns the answer into a 500.
    ensures var p := SuccessPayload(ResolveId(BodyOrNull(parsed), freshId), enc);
      codec.serialize(p).Normal? && Truthy(codec.serialize(p).value.json)
      && !Stringifiable(codec.serialize(p).value.json) ==>
        HandleRPC(codec, parsed, srvc, freshId) ==
          Normal(Response(500, Text(BigIntMessage), map["content-type" := TextPlain]))
    ensures var p := SuccessPayload(ResolveId(BodyOrNull(parsed), freshId), enc);
      PassesThrough(codec, p) && Stringifiable(enc.json) && Stringifiable(enc.meta) ==>
        HandleRPC(codec, parsed, srvc, freshId) == Normal(Response(200, Json(p), map["content-type" := TextPlain]))
  {
    SuccessPayloadStringifiable(ResolveId(BodyOrNull(parsed), freshId), enc);
  }

  /** A value the codec cannot encode produces no response: the codec's
      exception escapes, just as a method's own throw does. */
  lemma EncodeFailureEscapes(codec: Codec, parsed: Option<Value>, srvc: Service, freshId: string, args: seq<Value>, v: Value)
    requires IsJsonRpcRequest(BodyOrNull(parsed))
    requires HasMethod(srvc, MethodName(BodyOrNull(parsed)))
    requires DeserializeArgs(codec, BodyOrNull(parsed).fields["params"], Get(BodyOrNull(parsed), "meta")) == Normal(args)
    requires srvc[MethodName(BodyOrNull(parsed))].call(args) == Returned(v)
    requires codec.serialize(v).Abrupt?
    ensures HandleRPC(codec, parsed, srvc, freshId) == Abrupt(codec.serialize(v).thrown)
  {
  }

  /** A method that throws produces no response: its exception escapes. */
  lemma ThrowEscapes(codec: Codec, parsed: Option<Value>, srvc: Service, freshId: string, args: seq<Value>, e: Value)
    requires IsJsonRpcRequest(BodyOrNull(parsed))
    requires HasMethod(srvc, MethodName(BodyOrNull(parsed)))
    requires DeserializeArgs(codec, BodyOrNull(parsed).fields["params"], Get(BodyOrNull(parsed), "meta")) == Normal(args)
    requires srvc[MethodName(BodyOrNull(parsed))].call(args) == Threw(e)
    ensures HandleRPC(codec, parsed, srvc, freshId) == Abrupt(e)
  {
  }

  /** The two failures `handleRPC` reports itself use the default code 0,
      so their `error` is always a bare string. */
  lemma DispatcherFailuresAreBare(message: string)
    ensures FailPayload(message, 0) == Obj(map["error" := Str(message)])
    ensures FailPayload(message, 0).fields["error"].Str?
  {
  }
}

=== FILE: scenarios.dfy ===
/** How the client and the server fit together, and the application's own
    wiring: a pass-through codec, the two example services, the route set
    the hooks register, and whole calls from proxy to reply. */
module Scenarios {
  import opened Values
  import opened Codec
  import opened Json
  import opened RpcCore
  import opened Server
  import Client

  /** A codec that leaves every value as it is and records no descriptor:
      what superjson does for plain JSON without `undefined`. This fixture
      also passes `undefined` fields through (the success envelope's `meta`
      is `undefined` under it), where superjson would record them in a
      descriptor; the scenarios fix the codec, not superjson's tree. */
  function PlainCodec(): Codec {
    Codec(
      (v: Value) => Normal(Serialized(v, Undefined)),
      (json: Value, meta: Value) => Normal(json))
  }

  /** The client's envelope always passes the server's shape check when
      the codec turns the argument list into an array: the server reads
      back the method name, the argument tree and descriptor, and the id. */
  lemma ClientEnvelopeIsAccepted(codec: Codec, id: string, name: string, args: seq<Value>, items: seq<Value>, meta: Value, freshId: string)
    requires codec.serialize(Arr(Client.RemoveTrailingUndefs(args))) == Normal(Serialized(Arr(items), meta))
    ensures Client.RequestEnvelope(codec, id, name, args).Normal?
    ensures IsJsonRpcRequest(Client.RequestEnvelope(codec, id, name, args).value)
    ensures MethodName(Client.RequestEnvelope(codec, id, name, args).value) == name
    ensures Client.RequestEnvelope(codec, id, name, args).value.fields["params"] == Arr(items)
    ensures Get(Client.RequestEnvelope(codec, id, name, args).value, "meta") == meta
    ensures id != "" ==> ResolveId(Client.RequestEnvelope(codec, id, name, args).value, freshId) == Str(id)
  {
  }

  /** What the server answers to a call that reaches a method, read by the
      client: a descriptor-free result comes back as it is, one with a
      descriptor comes back decoded. */
  lemma SuccessReadBack(codec: Codec, id: Value, enc: Serialized, statusText: string)
    ensures !Truthy(enc.meta) ==>
      Client.InterpretResponse(codec, Client.HttpReply(200, statusText, Some(SuccessPayload(id, enc))))
        == Client.Returned(enc.json)
    ensures Truthy(enc.meta) && codec.deserialize(enc.json, enc.meta).Normal? ==>
      Client.InterpretResponse(codec, Client.HttpReply(200, statusText, Some(SuccessPayload(id, enc))))
        == Client.Returned(codec.deserialize(enc.json, enc.meta).value)
  {
  }

  /** JSON text drops the success envelope's `meta` when it is
      `undefined`, and keeps the rest of a plain envelope as it is. */
  lemma ReparsedSuccessWithoutMeta(id: Value, json: Value)
    requires PlainJson(id) && PlainJson(json)
    ensures Stringifiable(SuccessPayload(id, Serialized(json, Undefined)))
    ensures var r := Reparse(SuccessPayload(id, Serialized(json, Undefined)));
      && r.Obj? && "meta" !in r.fields && "error" !in r.fields
      && "jsonrpc" in r.fields && r.fields["jsonrpc"] == Str(JsonRpcVersion)
      && "id" in r.fields && r.fields["id"] == id
      && "result" in r.fields && r.fields["result"] == json
  {
    SuccessPayloadStringifiable(id, Serialized(json, Undefined));
    ReparseFixesPlain(id);
    ReparseFixesPlain(json);
  }

  /** The success envelope after its trip through JSON text: the `meta`
      field is gone when it was `undefined`, and the client still reads
      the result back as the server sent it. */
  lemma SuccessReadBackOverJson(codec: Codec, id: Value, enc: Serialized, statusText: string)
    requires PlainJson(id) && PlainJson(enc.json) && (enc.meta == Undefined || PlainJson(enc.meta))
    ensures Stringifiable(SuccessPayload(id, enc))
    ensures !Truthy(enc.meta) ==>
      Client.InterpretResponse(codec, Client.HttpReply(200, statusText, Some(Reparse(SuccessPayload(id, enc)))))
        == Client.Returned(enc.json)
    ensures Truthy(enc.meta) && codec.deserialize(enc.json, enc.meta).Normal? ==>
      Client.InterpretResponse(codec, Client.HttpReply(200, statusText, Some(Reparse(SuccessPayload(id, enc)))))
        == Client.Returned(codec.deserialize(enc.json, enc.meta).value)
  {
    SuccessPayloadStringifiable(id, enc);
    if enc.meta == Undefined {
      ReparsedSuccessWithoutMeta(id, enc.json);
    } else {
      assert PlainJson(SuccessPayload(id, enc));
      ReparseFixesPlain(SuccessPayload(id, enc));
      SuccessReadBack(codec, id, enc, statusText);
    }
  }

  /** A result whose tree is `undefined` does not survive JSON text: the
      `result` field is dropped, so the client takes the success envelope
      for an invalid response. */
  lemma UndefinedResultIsLost(codec: Codec, id: Value, meta: Value, statusText: string)
    requires Stringifiable(id) && Stringifiable(meta)
    ensures Stringifiable(SuccessPayload(id, Serialized(Undefined, meta)))
    ensures Client.InterpretResponse(codec,
              Client.HttpReply(200, statusText, Some(Reparse(SuccessPayload(id, Serialized(Undefined, meta))))))
      == Client.Raised(Client.RpcError(Str(Client.InvalidResponseMessage), Num(Client.InvalidResponseCode)))
  {
    var r := Reparse(SuccessPayload(id, Serialized(Undefined, meta)));
    assert "result" !in r.fields && "error" !in r.fields;
  }

  /** The dispatcher's own failures travel with status 400 or 404 (or 500
      when the codec fails on the payload), so the client raises with the
      HTTP status line whatever body it receives, never reading the message
      the server wrote; the fallback code 900 is not reached this way. */
  lemma DispatcherFailureSeenByClient(codec: Codec, message: string, status: HttpStatus, statusText: string, body: Option<Value>)
    requires status == 400 || status == 404
    ensures Fail(codec, message, status, 0).status in {400, 404, 500}
    ensures Client.InterpretResponse(codec, Client.HttpReply(Fail(codec, message, status, 0).status, statusText, body))
      == Client.Raised(Client.RpcError(Str(statusText), Num(Fail(codec, message, status, 0).status as real)))
    ensures PassesThrough(codec, FailPayload(message, 0)) ==>
      Fail(codec, message, status, 0).status == status
  {
  }

  /** The client reads a bare-string error envelope on an OK status with
      the fallback code 900, and a structured one with its own code. */
  lemma FailPayloadReadBack(codec: Codec, message: string, code: int, statusText: string)
    ensures Client.InterpretResponse(codec, Client.HttpReply(200, statusText, Some(FailPayload(message, code))))
      == Client.Raised(Client.RpcError(Str(message), Num(if code > 0 then code as real else Client.StringErrorCode)))
  {
  }

  /** JavaScript's string conversion in a template literal, for the
      argument kinds this fixture renders. */
  function TemplateString(v: Value): string {
    match v
    case Str(s) => s
    case Undefined => "undefined"
    case Null => "null"
    case Bool(b) => if b then "true" else "false"
    case Obj(_) => "[object Object]"
    case _ => "[value]"
  }

  /** `TestService.hello(name)`. */
  function Hello(args: seq<Value>): MethodOutcome {
    Returned(Str("Hello " + TemplateString(if |args| > 0 then args[0] else Undefined) + "!"))
  }

  /** `TestService.complex()`: a Set, which only the codec can carry. */
  function Complex(args: seq<Value>): MethodOutcome {
    Returned(Special("Set {1, 2, 3}"))
  }

  /** `TestService2.redir()`. */
  function Redir(args: seq<Value>): MethodOutcome {
    Redirected(RPCRedirect("/neo/profile", 301))
  }

  /** Calling a class constructor without `new` throws. */
  function ClassConstructor(className: string): Member {
    Callable((args: seq<Value>) =>
      Threw(TypeError("Class constructor " + className + " cannot be invoked without 'new'")))
  }

  /** The members every instance inherits from Object.prototype. `toString`
      gives "[object Object]"; `__defineGetter__` and `__defineSetter__`
      throw, because no argument that arrives over the wire is a function;
      the others are assumed to return normally, with a value not computed
      here. */
  function InheritedMembers(): Service {
    map k | k in ObjectPrototypeKeys ::
      if k == "__proto__" then Field(Special("prototype"))
      else if k == "toString" then Callable((args: seq<Value>) => Returned(Str("[object Object]")))
      else if k == "__defineGetter__" || k == "__defineSetter__" then
        Callable((args: seq<Value>) => Threw(TypeError("Object.prototype." + k + ": Expecting function")))
      else Callable((args: seq<Value>) => Returned(Special("result of " + k)))
  }

  /** `new TestService(event)`: the inherited members, the class's own
      constructor, the `event` field and the two methods. */
  function TestService(e: Event): Service {
    InheritedMembers() + map[
      "constructor" := ClassConstructor("TestService"),
      "event" := Field(Special("RequestEvent")),
      "hello" := Callable(Hello),
      "complex" := Callable(Complex)]
  }

  function TestService2(e: Event): Service {
    InheritedMembers() + map[
      "constructor" := ClassConstructor("TestService2"),
      "event" := Field(Special("RequestEvent")),
      "redir" := Callable(Redir)]
  }

  /** The application's routes: entry "test" is TestService, entry "test2"
      is TestService2. */
  function AppRoutes(): seq<(string, ServiceClass)> {
    [("test", ServiceClass("TestService", (e: Event) => Normal(TestService(e)))),
     ("test2", ServiceClass("TestService2", (e: Event) => Normal(TestService2(e))))]
  }

  /** The server the hooks build: configured base "/rpc", every route
      registered, the app itself served at the root. */
  function AppServer(): RPCServer {
    RegisterAll(NewServer("", "/rpc"), AppRoutes())
  }

  /** What the client's `fetch` reads from what `handle` produced: a JSON
      body is read back by `res.json()` from the text `JSON.stringify`
      wrote, so `undefined` fields are gone; an empty or plain-text body
      does not parse. */
  function Deliver(h: Handled, statusText: string): Client.HttpReply {
    Client.HttpReply(h.response.status, statusText,
                     if h.response.body.Json? && Stringifiable(h.response.body.tree)
                     then Some(Reparse(h.response.body.tree)) else None)
  }

  /** The transport a client of the app uses: post the envelope to the
      entry's URL and hand back what the server answered. */
  function AppTransport(uid: string, freshId: string, statusText: string): Value -> Completion<Client.HttpReply> {
    (envelope: Value) =>
      Normal(Deliver(Handle(AppServer(), PlainCodec(), Event(ClientUrl("", "/rpc", uid), Normal(Some(envelope)), freshId)), statusText))
  }

  lemma AppServesBothEntries()
    ensures ClientUrl("", "/rpc", "test") in AppServer().routes
    ensures AppServer().routes[ClientUrl("", "/rpc", "test")] == AppRoutes()[0].1
    ensures ClientUrl("", "/rpc", "test2") in AppServer().routes
    ensures AppServer().routes[ClientUrl("", "/rpc", "test2")] == AppRoutes()[1].1
  {
    RegisterAllServesClientUrls("", "/rpc", AppRoutes(), 0, Normal(None), "");
    RegisterAllServesClientUrls("", "/rpc", AppRoutes(), 1, Normal(None), "");
  }

  /** The members of a TestService instance the scenarios use. */
  lemma TestServiceMembers(e: Event)
    ensures "hello" in TestService(e) && TestService(e)["hello"] == Callable(Hello)
    ensures "constructor" in TestService(e) && TestService(e)["constructor"] == ClassConstructor("TestService")
    ensures "nope" !in TestService(e)
  {
    assert "nope" !in ObjectPrototypeKeys;
  }

  /** The app's `handle`, for a request to entry "test" that the client
      built, is the dispatcher's answer re-wrapped. */
  lemma HandleTestEntry(env: Value, freshId: string)
    ensures var e := Event(ClientUrl("", "/rpc", "test"), Normal(Some(env)), freshId);
      Handle(AppServer(), PlainCodec(), e) ==
        match HandleRPC(PlainCodec(), Some(env), TestService(e), freshId)
        case Abrupt(_) => InternalError()
        case Normal(res) => Handled(Response(res.status, res.body, map[]), res.headers[MarkerHeader := MarkerValue])
  {
    AppServesBothEntries();
  }

  lemma HelloAnn()
    ensures Hello([Str("Ann")]) == Returned(Str("Hello Ann!"))
  {
    assert TemplateString(Str("Ann")) == "Ann";
    assert "Hello " + "Ann" + "!" == "Hello Ann!";
  }

  /** The dispatcher's answer to `rpc.test.hello("Ann")` on a fresh
      TestService: 200 with the success envelope. */
  lemma HelloDispatched(id: string, freshId: string, e: Event)
    ensures Client.RequestEnvelope(PlainCodec(), id, "hello", [Str("Ann")]).Normal?
    ensures var env := Client.RequestEnvelope(PlainCodec(), id, "hello", [Str("Ann")]).value;
      HandleRPC(PlainCodec(), Some(env), TestService(e), freshId) ==
        Normal(Response(200, Json(SuccessPayload(ResolveId(env, freshId), Serialized(Str("Hello Ann!"), Undefined))),
                        map["content-type" := TextPlain]))
  {
    var env := Client.RequestEnvelope(PlainCodec(), id, "hello", [Str("Ann")]);
    assert Client.RemoveTrailingUndefs([Str("Ann")]) == [Str("Ann")];
    ClientEnvelopeIsAccepted(PlainCodec(), id, "hello", [Str("Ann")], [Str("Ann")], Undefined, freshId);
    TestServiceMembers(e);
    HelloAnn();
    ValueIsAnswered200(PlainCodec(), Some(env.value), TestService(e), freshId, [Str("Ann")], Str("Hello Ann!"),
                       Serialized(Str("Hello Ann!"), Undefined));
  }

  /** The server side of `rpc.test.hello("Ann")`: `handle` answers 200
      with the success envelope of "Hello Ann!" and no descriptor. */
  lemma HelloServerAnswer(id: string, freshId: string)
    ensures Client.RequestEnvelope(PlainCodec(), id, "hello", [Str("Ann")]).Normal?
    ensures var env := Client.RequestEnvelope(PlainCodec(), id, "hello", [Str("Ann")]).value;
      Handle(AppServer(), PlainCodec(), Event(ClientUrl("", "/rpc", "test"), Normal(Some(env)), freshId)).response
        == Response(200, Json(SuccessPayload(ResolveId(env, freshId), Serialized(Str("Hello Ann!"), Undefined))), map[])
  {
    var env := Client.RequestEnvelope(PlainCodec(), id, "hello", [Str("Ann")]).value;
    var e := Event(ClientUrl("", "/rpc", "test"), Normal(Some(env)), freshId);
    HelloDispatched(id, freshId, e);
    HandleTestEntry(env, freshId);
  }

  /** What the client's fetch reads from a JSON response is the body's
      JSON round trip. */
  lemma DeliverJsonBody(h: Handled, statusText: string, tree: Value)
    requires h.response.body == Json(tree) && Stringifiable(tree)
    ensures Deliver(h, statusText) == Client.HttpReply(h.response.status, statusText, Some(Reparse(tree)))
  {
  }

  /** The reply the client of entry "test" receives for `hello("Ann")`:
      200 and the success envelope as JSON text brings it back. */
  lemma HelloDelivered(id: string, freshId: string, statusText: string)
    ensures Client.RequestEnvelope(PlainCodec(), id, "hello", [Str("Ann")]).Normal?
    ensures var env := Client.RequestEnvelope(PlainCodec(), id, "hello", [Str("Ann")]).value;
      var p := SuccessPayload(ResolveId(env, freshId), Serialized(Str("Hello Ann!"), Undefined));
      Stringifiable(p) &&
      AppTransport("test", freshId, statusText)(env) == Normal(Client.HttpReply(200, statusText, Some(Reparse(p))))
  {
    HelloServerAnswer(id, freshId);
    var env := Client.RequestEnvelope(PlainCodec(), id, "hello", [Str("Ann")]).value;
    var p := SuccessPayload(ResolveId(env, freshId), Serialized(Str("Hello Ann!"), Undefined));
    SuccessPayloadStringifiable(ResolveId(env, freshId), Serialized(Str("Hello Ann!"), Undefined));
    DeliverJsonBody(Handle(AppServer(), PlainCodec(), Event(ClientUrl("", "/rpc", "test"), Normal(Some(env)), freshId)),
                    statusText, p);
  }

  /** Under the pass-through codec the client writes the envelope of any
      call whose arguments JSON.stringify can write. */
  lemma PlainEnvelopeWritten(id: string, name: string, args: seq<Value>)
    requires forall i :: 0 <= i < |args| ==> Stringifiable(args[i])
    ensures Client.RequestEnvelope(PlainCodec(), id, name, args).Normal?
    ensures Stringifiable(Client.RequestEnvelope(PlainCodec(), id, name, args).value)
  {
    var t := Client.RemoveTrailingUndefs(args);
    assert forall i :: 0 <= i < |t| ==> t[i] == args[i];
    assert Stringifiable(Arr(t));
    Client.EnvelopeStringifiable(PlainCodec(), id, name, args);
  }

  /** The client's side of `hello("Ann")` against the app: the call
      returns "Hello Ann!". */
  lemma HelloCall(id: string, freshId: string, statusText: string)
    ensures Client.Call(PlainCodec(), "hello", [Str("Ann")], id, AppTransport("test", freshId, statusText))
      == Client.Returned(Str("Hello Ann!"))
  {
    PlainEnvelopeWritten(id, "hello", [Str("Ann")]);
    HelloDelivered(id, freshId, statusText);
    var env := Client.RequestEnvelope(PlainCodec(), id, "hello", [Str("Ann")]).value;
    var resId := ResolveId(env, freshId);
    assert resId.Str?;
    SuccessReadBackOverJson(PlainCodec(), resId, Serialized(Str("Hello Ann!"), Undefined), statusText);
    var reply := Client.HttpReply(200, statusText, Some(Reparse(SuccessPayload(resId, Serialized(Str("Hello Ann!"), Undefined)))));
    Client.CallOfReply(PlainCodec(), "hello", [Str("Ann")], id, AppTransport("test", freshId, statusText), reply);
  }

  /** `rpc.test.hello("Ann")` returns "Hello Ann!" after the full trip:
      proxy, envelope, route lookup, fresh instance, dispatch, reply. */
  lemma HelloRoundTrip(id: string, freshId: string, statusText: string)
    ensures Client.ProxyGet(Client.StringKey("hello")) == Some("hello")
    ensures Client.Call(PlainCodec(), "hello", [Str("Ann")], id, AppTransport("test", freshId, statusText))
      == Client.Returned(Str("Hello Ann!"))
  {
    Client.ProxyExamples();
    HelloCall(id, freshId, statusText);
  }

  /** The dispatcher's answer to `rpc.test2.redir()` on a fresh
      TestService2: 301, no body, the location header. */
  lemma RedirDispatched(id: string, freshId: string, e: Event)
    ensures Client.RequestEnvelope(PlainCodec(), id, "redir", []).Normal?
    ensures HandleRPC(PlainCodec(), Some(Client.RequestEnvelope(PlainCodec(), id, "redir", []).value), TestService2(e), freshId)
      == Normal(Response(301, NoBody, map["location" := "/neo/profile"]))
  {
    var env := Client.RequestEnvelope(PlainCodec(), id, "redir", []);
    ClientEnvelopeIsAccepted(PlainCodec(), id, "redir", [], [], Undefined, freshId);
    assert HasMethod(TestService2(e), "redir");
    RedirectIsAnsweredAsRedirect(PlainCodec(), Some(env.value), TestService2(e), freshId, [], RPCRedirect("/neo/profile", 301));
  }

  /** `rpc.test2.redir()` is answered 301 with no body; the location
      reaches the event's headers beside the `x-rpc` marker. */
  lemma RedirAnswer(id: string, freshId: string)
    ensures Client.RequestEnvelope(PlainCodec(), id, "redir", []).Normal?
    ensures Handle(AppServer(), PlainCodec(),
                   Event(ClientUrl("", "/rpc", "test2"), Normal(Some(Client.RequestEnvelope(PlainCodec(), id, "redir", []).value)), freshId))
      == Handled(Response(301, NoBody, map[]), map["location" := "/neo/profile", "x-rpc" := "dfntly"])
  {
    AppServesBothEntries();
    var env := Client.RequestEnvelope(PlainCodec(), id, "redir", []).value;
    var e := Event(ClientUrl("", "/rpc", "test2"), Normal(Some(env)), freshId);
    RedirDispatched(id, freshId, e);
  }

  /** The server side of a call to a method TestService lacks: a 404. */
  lemma UnknownMethodServerAnswer(id: string, freshId: string, statusText: string)
    ensures Client.RequestEnvelope(PlainCodec(), id, "nope", []).Normal?
    ensures var reply := AppTransport("test", freshId, statusText)(Client.RequestEnvelope(PlainCodec(), id, "nope", []).value);
      reply.Normal? && reply.value.status == 404 && reply.value.statusText == statusText
  {
    var env := Client.RequestEnvelope(PlainCodec(), id, "nope", []);
    ClientEnvelopeIsAccepted(PlainCodec(), id, "nope", [], [], Undefined, freshId);
    var e := Event(ClientUrl("", "/rpc", "test"), Normal(Some(env.value)), freshId);
    TestServiceMembers(e);
    var message := MethodNotFoundMessage("nope");
    assert PassesThrough(PlainCodec(), Obj(map["error" := Str(message)]));
    UnknownMethodIs404(PlainCodec(), Some(env.value), TestService(e), freshId);
    HandleTestEntry(env.value, freshId);
    assert Handle(AppServer(), PlainCodec(), e).response.status == 404;
  }

  /** A method the service lacks: the server answers 404, and the client
      raises with the HTTP status, not the server's message. */
  lemma UnknownMethodCall(id: string, freshId: string, statusText: string)
    ensures Client.Call(PlainCodec(), "nope", [], id, AppTransport("test", freshId, statusText))
      == Client.Raised(Client.RpcError(Str(statusText), Num(404.0)))
  {
    UnknownMethodServerAnswer(id, freshId, statusText);
    PlainEnvelopeWritten(id, "nope", []);
    var t := AppTransport("test", freshId, statusText);
    var env := Client.RequestEnvelope(PlainCodec(), id, "nope", []).value;
    var reply := t(env).value;
    Client.CallOfReply(PlainCodec(), "nope", [], id, t, reply);
    assert !Client.IsOk(reply);
  }

  /** The proxy only ever forwards names an instance does not inherit, so
      on any service laid over the inherited members a forwarded name finds
      the service's own member or nothing. */
  lemma ForwardedNamesSelectOwnMembers(own: Service, k: string)
    requires Client.ProxyGet(Client.StringKey(k)).Some?
    ensures k in InheritedMembers() + own <==> k in own
    ensures k in own ==> (InheritedMembers() + own)[k] == own[k]
    ensures HasMethod(InheritedMembers() + own, k) == HasMethod(own, k)
  {
    Client.ForwardedIsNotInherited(k, Obj(map[]));
    assert k !in InheritedMembers();
    HasMethodThroughPrototype(InheritedMembers(), own, k);
  }

  /** Inherited members are callable on the server, and the `event` field
      is not a method; the proxy never produces a call to the former. */
  lemma InheritedMembersAreMethods(e: Event)
    ensures HasMethod(TestService(e), "toString")
    ensures HasMethod(TestService(e), "hasOwnProperty")
    ensures !HasMethod(TestService(e), "event")
    ensures !HasMethod(TestService(e), "__proto__")
    ensures Client.ProxyGet(Client.StringKey("toString")).None?
  {
    assert "toString" in InheritedMembers() && InheritedMembers()["toString"].Callable?;
    assert "hasOwnProperty" in InheritedMembers() && InheritedMembers()["hasOwnProperty"].Callable?;
    assert "__proto__" in InheritedMembers() && InheritedMembers()["__proto__"].Field?;
  }

  /** A throwing method, here the class constructor called without `new`,
      escapes the dispatcher and `handle` answers a plain 500. */
  lemma ThrowingMethodIs500(id: string, freshId: string)
    ensures Client.RequestEnvelope(PlainCodec(), id, "constructor", []).Normal?
    ensures Handle(AppServer(), PlainCodec(),
                   Event(ClientUrl("", "/rpc", "test"), Normal(Some(Client.RequestEnvelope(PlainCodec(), id, "constructor", []).value)), freshId))
      == InternalError()
  {
    var env := Client.RequestEnvelope(PlainCodec(), id, "constructor", []);
    ClientEnvelopeIsAccepted(PlainCodec(), id, "constructor", [], [], Undefined, freshId);
    var e := Event(ClientUrl("", "/rpc", "test"), Normal(Some(env.value)), freshId);
    TestServiceMembers(e);
    var thrown := TypeError("Class constructor " + "TestService" + " cannot be invoked without 'new'");
    assert TestService(e)["constructor"].call([]) == Threw(thrown);
    ThrowEscapes(PlainCodec(), Some(env.value), TestService(e), freshId, [], thrown);
    HandleTestEntry(env.value, freshId);
  }
}

=== FILE: server.dfy ===
/** The route registry and request entry point (server.ts): a map from
    pathname to service class, filled by `register` / `registerAll`, looked
    up by exact pathname, and the `handle` wrapper that turns a miss into
    404 and any escaping exception into 500. */
module Server {
  import opened Values
  import opened Codec
  import opened RpcCore

  const NotFoundMessage: string := "Not Found."
  const InternalErrorMessage: string := "Internal Server Error (1)."
  /** The header `handle` adds to every dispatched response. */
  const MarkerHeader: string := "x-rpc"
  const MarkerValue: string := "dfntly"

  /** What the server reads from a request event: the URL's pathname, the
      body (`Abrupt` when `request.text()` rejects, otherwise the tree
      JSON.parse reads, `None` when it throws), and the id
      `crypto.randomUUID()` mints for it. */
  datatype Event = Event(pathname: string, body: Completion<Option<Value>>, freshId: string)

  /** A service class: its declared name and `new cls(event)`, which builds
      a fresh instance for one request and may throw. */
  datatype ServiceClass = ServiceClass(name: string, construct: Event -> Completion<Service>)

  /** The `url` argument of `register`: a path string or a `URL`. */
  datatype Location = PathString(path: string) | Url(pathname: string)

  /** `RPCServer`: the application's base path (`base` from the framework),
      the constructor's `basePath`, and the route map. */
  datatype RPCServer = RPCServer(appBase: string, basePath: string, routes: map<string, ServiceClass>)

  function NewServer(appBase: string, basePath: string): RPCServer {
    RPCServer(appBase, basePath, map[])
  }

  /** `serviceNameToRoute`: the route a service name would get, lower-cased
      as a whole. */
  function ServiceNameToRoute(appBase: string, serviceName: string): (route: string)
    ensures route == AsciiLower(appBase) + "/rpc/" + AsciiLower(serviceName)
    ensures AsciiLower(route) == route
  {
    AsciiLowerConcat(appBase + "/rpc/", serviceName);
    AsciiLowerConcat(appBase, "/rpc/");
    assert AsciiLower("/rpc/") == "/rpc/";
    AsciiLowerIdempotent(appBase + "/rpc/" + serviceName);
    AsciiLower(appBase + "/rpc/" + serviceName)
  }

  /** Names that differ only in the case of ASCII letters share a route. */
  lemma RouteIgnoresCase(appBase: string, a: string, b: string)
    requires AsciiLower(a) == AsciiLower(b)
    ensures ServiceNameToRoute(appBase, a) == ServiceNameToRoute(appBase, b)
  {
  }

  /** `serviceToServiceName`: the class name with one trailing "Service"
      removed, and nothing else. */
  function ServiceToServiceName(cls: ServiceClass): (name: string)
    ensures EndsWith(cls.name, "Service") ==> name + "Service" == cls.name
    ensures !EndsWith(cls.name, "Service") ==> name == cls.name
  {
    if EndsWith(cls.name, "Service") then cls.name[..|cls.name| - 7] else cls.name
  }

  /** Appending "Service" and deriving the service name are inverse. */
  lemma ServiceNameStripsSuffix(x: string, construct: Event -> Completion<Service>)
    ensures ServiceToServiceName(ServiceClass(x + "Service", construct)) == x
  {
    assert (x + "Service")[|x + "Service"| - 7..] == "Service";
    assert (x + "Service")[..|x|] == x;
  }

  /** A name whose last character is not 'e' keeps every character. */
  lemma NoSuffixKeepsName(x: string, construct: Event -> Completion<Service>)
    requires |x| > 0 && x[|x| - 1] != 'e'
    ensures ServiceToServiceName(ServiceClass(x, construct)) == x
  {
    if |x| >= 7 {
      assert x[|x| - 7..][6] == x[|x| - 1] != "Service"[6];
    }
  }

  lemma ServiceNameExamples(construct: Event -> Completion<Service>)
    ensures ServiceToServiceName(ServiceClass("TestService", construct)) == "Test"
    ensures ServiceToServiceName(ServiceClass("ServiceService", construct)) == "Service"
    ensures ServiceToServiceName(ServiceClass("TestService2", construct)) == "TestService2"
  {
    assert "Test" + "Service" == "TestService";
    ServiceNameStripsSuffix("Test", construct);
    assert "Service" + "Service" == "ServiceService";
    ServiceNameStripsSuffix("Service", construct);
    NoSuffixKeepsName("TestService2", construct);
  }

  /** The route `register` files a class under. */
  function RouteOf(s: RPCServer, url: Location): string {
    match url
    case PathString(p) => s.appBase + s.basePath + p
    case Url(pathname) => pathname
  }

  /** `register`: last write wins for the route, every other route is
      left alone, and no lower-casing happens. */
  function Register(s: RPCServer, cls: ServiceClass, url: Location): (s': RPCServer)
    ensures s'.appBase == s.appBase && s'.basePath == s.basePath
    ensures RouteOf(s, url) in s'.routes && s'.routes[RouteOf(s, url)] == cls
    ensures s'.routes.Keys == s.routes.Keys + {RouteOf(s, url)}
    ensures forall p :: p in s.routes && p != RouteOf(s, url) ==> s'.routes[p] == s.routes[p]
  {
    s.(routes := s.routes[RouteOf(s, url) := cls])
  }

  /** The route `registerAll` gives the entry named `key`. */
  function EntryRoute(s: RPCServer, key: string): string {
    RouteOf(s, PathString("/" + key))
  }

  lemma EntryRouteInjective(s: RPCServer, k1: string, k2: string)
    requires EntryRoute(s, k1) == EntryRoute(s, k2)
    ensures k1 == k2
  {
    var q := s.appBase + s.basePath;
    assert EntryRoute(s, k1)[|q|..] == "/" + k1;
    assert EntryRoute(s, k2)[|q|..] == "/" + k2;
    assert ("/" + k1)[1..] == k1;
    assert ("/" + k2)[1..] == k2;
  }

  /** `Object.entries` never repeats a key. */
  predicate DistinctKeys(entries: seq<(string, ServiceClass)>) {
    forall i, j :: 0 <= i < j < |entries| ==> entries[i].0 != entries[j].0
  }

  /** `registerAll`: registers every entry `k` under the path "/" + k, in
      the order `Object.entries` lists them. */
  function RegisterAll(s: RPCServer, entries: seq<(string, ServiceClass)>): (s': RPCServer)
    ensures s'.appBase == s.appBase && s'.basePath == s.basePath
    decreases |entries|
  {
    if |entries| == 0 then s
    else RegisterAll(Register(s, entries[0].1, PathString("/" + entries[0].0)), entries[1..])
  }

  /** With distinct keys, every entry `k` ends up at
      `base + basePath + "/" + k`, no other route appears, and the routes no
      entry names keep their classes. */
  lemma {:induction false} RegisterAllRoutes(s: RPCServer, entries: seq<(string, ServiceClass)>)
    requires DistinctKeys(entries)
    ensures forall i :: 0 <= i < |entries| ==>
      EntryRoute(s, entries[i].0) in RegisterAll(s, entries).routes
      && RegisterAll(s, entries).routes[EntryRoute(s, entries[i].0)] == entries[i].1
    ensures forall p :: p in RegisterAll(s, entries).routes ==>
      p in s.routes || exists i :: 0 <= i < |entries| && p == EntryRoute(s, entries[i].0)
    ensures forall p :: p in s.routes && (forall i :: 0 <= i < |entries| ==> p != EntryRoute(s, entries[i].0)) ==>
      p in RegisterAll(s, entries).routes && RegisterAll(s, entries).routes[p] == s.routes[p]
    decreases |entries|
  {
    if |entries| > 0 {
      var s1 := Register(s, entries[0].1, PathString("/" + entries[0].0));
      var rest := entries[1..];
      assert DistinctKeys(rest) by {
        forall i, j | 0 <= i < j < |rest| ensures rest[i].0 != rest[j].0 {
          assert rest[i] == entries[i + 1] && rest[j] == entries[j + 1];
        }
      }
      RegisterAllRoutes(s1, rest);
      assert RegisterAll(s, entries) == RegisterAll(s1, rest);
      assert forall k :: EntryRoute(s1, k) == EntryRoute(s, k);
      forall j | 0 <= j < |rest|
        ensures EntryRoute(s, rest[j].0) != EntryRoute(s, entries[0].0)
      {
        assert rest[j] == entries[j + 1];
        if EntryRoute(s, rest[j].0) == EntryRoute(s, entries[0].0) {
          EntryRouteInjective(s, rest[j].0, entries[0].0);
        }
      }
      assert forall i :: 0 < i < |entries| ==> entries[i] == rest[i - 1];
    }
  }

  /** `getHandlerForURL`: exact, case-sensitive lookup of the pathname. */
  function GetHandlerForURL(s: RPCServer, pathname: string): (cls: Option<ServiceClass>)
    ensures cls.Some? <==> pathname in s.routes
    ensures cls.Some? ==> cls.value == s.routes[pathname]
  {
    if pathname in s.routes then Some(s.routes[pathname]) else None
  }

  /** `isRPCRequest`: the pathname is a key of the route map. */
  predicate IsRPCRequest(s: RPCServer, e: Event)
    ensures IsRPCRequest(s, e) <==> e.pathname in s.routes
  {
    GetHandlerForURL(s, e.pathname).Some?
  }

  /** Lookup after `register`: the registered route now finds the new
      class, and every other pathname finds what it found before. */
  lemma LookupAfterRegister(s: RPCServer, cls: ServiceClass, url: Location, pathname: string)
    ensures GetHandlerForURL(Register(s, cls, url), pathname) ==
      if pathname == RouteOf(s, url) then Some(cls) else GetHandlerForURL(s, pathname)
  {
  }

  /** `isRPCRequest` after `register`: the registered route is claimed, and
      every other pathname is claimed exactly when it was before. A fresh
      server claims nothing. */
  lemma IsRPCRequestAfterRegister(s: RPCServer, cls: ServiceClass, url: Location, e: Event)
    ensures IsRPCRequest(Register(s, cls, url), e) == (e.pathname == RouteOf(s, url) || IsRPCRequest(s, e))
    ensures !IsRPCRequest(NewServer(s.appBase, s.basePath), e)
  {
  }

  /** What `handle` produces: the response it returns, and the headers it
      sets on the event (`event.setHeaders`). */
  datatype Handled = Handled(response: Response, setHeaders: Headers)

  /** The response `handle` gives when anything escapes. */
  function InternalError(): Handled {
    Handled(NewResponse(Text(InternalErrorMessage), 500, map[]), map[])
  }

  /** `handle`: a miss is a plain 404 and builds nothing; a hit builds a
      fresh instance, dispatches, passes the dispatcher's status and body
      through, copies its headers to the event and marks it with
      `x-rpc: dfntly`; anything thrown on the way becomes a plain 500. */
  function Handle(s: RPCServer, codec: Codec, e: Event): (h: Handled)
    ensures !IsRPCRequest(s, e) ==>
      h == Handled(Response(404, Text(NotFoundMessage), map["content-type" := TextPlain]), map[])
    ensures IsRPCRequest(s, e) && s.routes[e.pathname].construct(e).Abrupt? ==> h == InternalError()
    // A body that cannot be read rejects the dispatcher before it parses.
    ensures IsRPCRequest(s, e) && s.routes[e.pathname].construct(e).Normal? && e.body.Abrupt? ==>
      h == InternalError()
    ensures IsRPCRequest(s, e) && s.routes[e.pathname].construct(e).Normal? && e.body.Normal? ==>
      match HandleRPC(codec, e.body.value, s.routes[e.pathname].construct(e).value, e.freshId)
      case Abrupt(_) => h == InternalError()
      case Normal(res) =>
        h == Handled(Response(res.status, res.body, map[]), res.headers[MarkerHeader := MarkerValue])
    // The marker is set exactly when the dispatcher answered.
    ensures MarkerHeader in h.setHeaders <==>
      && IsRPCRequest(s, e)
      && s.routes[e.pathname].construct(e).Normal?
      && e.body.Normal?
      && HandleRPC(codec, e.body.value, s.routes[e.pathname].construct(e).value, e.freshId).Normal?
  {
    match GetHandlerForURL(s, e.pathname)
    case None => Handled(NewResponse(Text(NotFoundMessage), 404, map[]), map[])
    case Some(cls) =>
      match cls.construct(e)
      case Abrupt(_) => InternalError()
      case Normal(srvc) =>
        match e.body
        case Abrupt(_) => InternalError()
        case Normal(parsed) =>
          match HandleRPC(codec, parsed, srvc, e.freshId)
          case Abrupt(_) => InternalError()
          case Normal(res) =>
            // the body is re-wrapped as a stream, so no content-type of its own
            Handled(Response(res.status, res.body, map[]), res.headers[MarkerHeader := MarkerValue])
  }

  /** The URL the client of entry `uid` posts to (`rpc.ts`): the app base,
      the configured base, a slash and the key. */
  function ClientUrl(appBase: string, configBase: string, uid: string): string {
    appBase + configBase + "/" + uid
  }

  /** Registering all entries under the configured base serves exactly the
      URLs the clients of those entries post to. */
  lemma RegisterAllServesClientUrls(appBase: string, configBase: string, entries: seq<(string, ServiceClass)>,
                                    i: nat, body: Completion<Option<Value>>, freshId: string)
    requires DistinctKeys(entries)
    requires i < |entries|
    ensures IsRPCRequest(RegisterAll(NewServer(appBase, configBase), entries),
                         Event(ClientUrl(appBase, configBase, entries[i].0), body, freshId))
    ensures RegisterAll(NewServer(appBase, configBase), entries).routes[ClientUrl(appBase, configBase, entries[i].0)]
            == entries[i].1
  {
    RegisterAllRoutes(NewServer(appBase, configBase), entries);
    assert ClientUrl(appBase, configBase, entries[i].0) == EntryRoute(NewServer(appBase, configBase), entries[i].0);
  }

  /** Lookup is exact: a route registered as "/Test" does not serve
      "/test". */
  lemma MatchIsCaseSensitive(cls: ServiceClass, body: Completion<Option<Value>>, freshId: string)
    ensures IsRPCRequest(Register(NewServer("", "/rpc"), cls, PathString("/Test")), Event("/rpc/Test", body, freshId))
    ensures !IsRPCRequest(Register(NewServer("", "/rpc"), cls, PathString("/Test")), Event("/rpc/test", body, freshId))
  {
    var s := Register(NewServer("", "/rpc"), cls, PathString("/Test"));
    assert "" + "/rpc" + "/Test" == "/rpc/Test";
    assert s.routes.Keys == {"/rpc/Test"};
    assert "/rpc/test"[5] != "/rpc/Test"[5];
  }

  /** A second registration of a route replaces the first. */
  lemma RegisterLastWriteWins(s: RPCServer, a: ServiceClass, b: ServiceClass, url: Location)
    ensures Register(Register(s, a, url), b, url) == Register(s, b, url)
  {
  }
}

=== FILE: values.dfy ===
/** JavaScript values as the RPC library observes them.

    The library never inspects a value beyond a handful of tests: `typeof`,
    `=== undefined`, truthiness, the `in` operator and reading an own
    property. This module models exactly those tests. */
module Values {

  datatype Option<+T> = None | Some(value: T)

  /** A JavaScript value. `Arr` and `Obj` are the plain arrays and objects
      that JSON.parse produces (an Error object is an `Obj` carrying its
      `message`); JSON.stringify throws on a `BigInt`, and a `Special` is an
      object with no own property the library reads (a Set, Map or RegExp),
      which JSON text turns into `{}`. */
  datatype Value =
    | Undefined
    | Null
    | Bool(b: bool)
    | Num(n: real)
    | Str(s: string)
    | BigInt(i: int)
    | Arr(items: seq<Value>)
    | Obj(fields: map<string, Value>)
    | Special(kind: string)

  /** The completion of a JavaScript evaluation: a normal result, or the
      value it threw. */
  datatype Completion<+T> = Normal(value: T) | Abrupt(thrown: Value)

  /** JavaScript truthiness: `undefined`, `null`, `false`, `0`, `""` and
      `0n` are falsy, every object is truthy. */
  predicate Truthy(v: Value) {
    match v
    case Undefined => false
    case Null => false
    case Bool(b) => b
    case Num(n) => n != 0.0
    case Str(s) => s != ""
    case BigInt(i) => i != 0
    case _ => true
  }

  /** Names every object inherits from Object.prototype. */
  const ObjectPrototypeKeys: set<string> := {
    "constructor", "__defineGetter__", "__defineSetter__", "hasOwnProperty",
    "__lookupGetter__", "__lookupSetter__", "isPrototypeOf",
    "propertyIsEnumerable", "toString", "valueOf", "__proto__",
    "toLocaleString"
  }

  /** String-named members every array inherits from Array.prototype. */
  const ArrayPrototypeKeys: set<string> := {
    "at", "concat", "copyWithin", "entries", "every", "fill", "filter",
    "find", "findIndex", "findLast", "findLastIndex", "flat", "flatMap",
    "forEach", "includes", "indexOf", "join", "keys", "lastIndexOf", "map",
    "pop", "push", "reduce", "reduceRight", "reverse", "shift", "slice",
    "some", "sort", "splice", "toLocaleString", "toReversed", "toSorted",
    "toSpliced", "toString", "unshift", "values", "with", "constructor"
  }

  predicate IsDigit(c: char) {
    '0' <= c <= '9'
  }

  predicate AllDigits(k: string) {
    forall i :: 0 <= i < |k| ==> IsDigit(k[i])
  }

  function DigitsValue(k: string): nat
    requires AllDigits(k)
    decreases |k|
  {
    if |k| == 0 then 0
    else DigitsValue(k[..|k| - 1]) * 10 + (k[|k| - 1] as int - '0' as int)
  }

  /** `k` is the canonical name of an index of an array of length `n`. */
  predicate IsIndexKey(k: string, n: nat) {
    && |k| > 0
    && AllDigits(k)
    && (k == "0" || k[0] != '0')
    && DigitsValue(k) < n
  }

  /** `typeof v === "object" && v !== null`. */
  predicate IsObject(v: Value) {
    v.Arr? || v.Obj? || v.Special?
  }

  /** The `in` operator on an object: own keys and inherited keys alike.
      It is false on every primitive and true on every own field. */
  predicate HasProperty(v: Value, k: string)
    ensures HasProperty(v, k) ==> IsObject(v)
    ensures v.Obj? && k in v.fields ==> HasProperty(v, k)
    ensures v.Obj? && k in ObjectPrototypeKeys ==> HasProperty(v, k)
  {
    match v
    case Obj(fields) => k in fields || k in ObjectPrototypeKeys
    case Arr(items) =>
      || k == "length"
      || IsIndexKey(k, |items|)
      || k in ArrayPrototypeKeys
      || k in ObjectPrototypeKeys
    case Special(_) => k in ObjectPrototypeKeys
    case _ => false
  }

  /** Reading `v[k]` for a key no prototype supplies: the own field, or
      `undefined`. */
  function Get(v: Value, k: string): Value {
    if v.Obj? && k in v.fields then v.fields[k] else Undefined
  }

  /** A key that some object or array may carry without owning it. */
  predicate IsBuiltinKey(k: string) {
    k in ObjectPrototypeKeys || k in ArrayPrototypeKeys || k == "length" || (|k| > 0 && AllDigits(k))
  }

  /** For a key no prototype supplies, `in` is true exactly for the own
      fields of a plain object. */
  lemma OwnPropertyOnly(v: Value, k: string)
    requires !IsBuiltinKey(k)
    ensures HasProperty(v, k) <==> v.Obj? && k in v.fields
  {
  }

  /** The keys the wire protocol reads. */
  const ProtocolKeys: set<string> := {
    "jsonrpc", "id", "method", "params", "meta", "result", "error", "code", "message"
  }

  /** No protocol key names a member of Object.prototype or
      Array.prototype. */
  lemma ProtocolKeysNotInherited(k: string)
    requires k in ProtocolKeys
    ensures k !in ObjectPrototypeKeys && k !in ArrayPrototypeKeys
  {
    assert k !in ObjectPrototypeKeys;
  }

  /** None of the protocol's keys is inherited, so every shape test of the
      library is a test of own fields. */
  lemma ProtocolKeysAreOwn(k: string)
    requires k in ProtocolKeys
    ensures !IsBuiltinKey(k)
  {
    // every protocol key starts with a lower-case letter
    assert !IsDigit(k[0]);
    ProtocolKeysNotInherited(k);
  }

  /** `in` on a protocol key is exactly an own-field test. */
  lemma OwnProtocolKey(v: Value, k: string)
    requires k in ProtocolKeys
    ensures HasProperty(v, k) <==> v.Obj? && k in v.fields
  {
    ProtocolKeysAreOwn(k);
    OwnPropertyOnly(v, k);
  }

  /** The protocol-version tag both ends write and test for. */
  const JsonRpcVersion: string := "2.0"

  /** Lower-cases ASCII letters and leaves every other character alone. */
  function LowerChar(c: char): (d: char)
    ensures 'A' <= c <= 'Z' ==> d as int == c as int + 32
    ensures !('A' <= c <= 'Z') ==> d == c
    ensures !('A' <= d <= 'Z')
  {
    if 'A' <= c <= 'Z' then (c as int + 32) as char else c
  }

  function IsUpper(c: char): bool {
    'A' <= c <= 'Z'
  }

  /** ASCII lower-casing of a whole string: no upper-case letter is left,
      every character that is not one is kept in place, and each upper-case
      letter becomes its lower-case partner. */
  function AsciiLower(s: string): (r: string)
    ensures |r| == |s|
    ensures forall i :: 0 <= i < |r| ==> !IsUpper(r[i])
    ensures forall i :: 0 <= i < |s| && !IsUpper(s[i]) ==> r[i] == s[i]
    ensures forall i :: 0 <= i < |s| && IsUpper(s[i]) ==> r[i] as int - s[i] as int == 'a' as int - 'A' as int
  {
    seq(|s|, i requires 0 <= i < |s| => LowerChar(s[i]))
  }

  /** A string without upper-case letters is its own lower-case form. */
  lemma AsciiLowerFixesLower(s: string)
    requires forall i :: 0 <= i < |s| ==> !IsUpper(s[i])
    ensures AsciiLower(s) == s
  {
  }

  lemma AsciiLowerIdempotent(s: string)
    ensures AsciiLower(AsciiLower(s)) == AsciiLower(s)
  {
    AsciiLowerFixesLower(AsciiLower(s));
  }

  lemma AsciiLowerConcat(a: string, b: string)
    ensures AsciiLower(a + b) == AsciiLower(a) + AsciiLower(b)
  {
  }

  /** The error object a `TypeError` with this message is, as far as the
      library reads it. */
  function TypeError(message: string): (e: Value)
    ensures e.Obj? && "message" in e.fields && e.fields["message"] == Str(message)
  {
    Obj(map["name" := Str("TypeError"), "message" := Str(message)])
  }

  predicate EndsWith(s: string, suffix: string) {
    |suffix| <= |s| && s[|s| - |suffix|..] == suffix
  }

  predicate StartsWith(s: string, prefix: string) {
    |prefix| <= |s| && s[..|prefix|] == prefix
  }
}
